=== FILE: README.md ===
# sg_bridgeBot (floating bridge) — a Dafny model of the game engine

The bot runs a four-seat game of floating (Singapore) bridge. It has four parts:

- **Deck and hand utilities.** It builds the 52-card deck, deals it round robin with `cards[i::n]` and sorts cards by suit and then rank. It values a hand as honour points (Ace 4, King 3, Queen 2, Jack 1) plus one point for every suit holding five or more cards.
- **The auction.** `BiddingPhase` offers `Pass` and every bid worth more than the highest bid so far. A bid is worth `10 * level + strain score`, with Clubs 1 up to No Trump 5. The auction records passes and bids until three seats have passed. The winning bidder then names a card. The seat holding that card becomes the bidder's partner, the two teams get their set thresholds, and the partnership map is built.
- **Play.** `GamePhase` chooses the opening leader and plays rounds. In each round every seat plays one legal card in seat order from the leader. `resolve_set` names the winner of the set, and that seat leads the next round. Play stops when a seat's sets plus its partner's reach its threshold, or when the hands run out.
- **Variants.** The repository holds two generations of this code: the `bridgeBot/` package and the older `game/` package. They share one auction, so one set of members models both files. `game/bidding.py` differs in field names and in how it sorts the partner candidates (see `Bidding.SortedOthers` under "Left out").

Seats are indices `0..n-1`. The per-seat state of a phase (hands, sets won, thresholds, whether the seat is still bidding) is a sequence field of the phase class, indexed by seat. Cards are values `Card(rank, suit)`, and a set is a sequence of `Play(seat, card)`. A console choice is a function parameter: `choose(seat, offered)` returns an index into the offered bids and `pick(seat, legal)` an index into the legal cards. Each is required to return an index in range. The partner card index is a parameter with a range precondition.

The model follows the code where it departs from the usual game or from its own documentation:

- `resolve_set` compares ranks as Python strings. `Lex.StrLess` models this lexicographic order, so `"10" < "2"` and `"Ace" < "King"`.
- `play_round` adds the set to the sets won by the last seat to play, not to the winner.
- The lowest level offered is `max(numeric_bid // 10, 1)`. That is always 1 because the stored level is at most 7.
- A bid is never validated against the offered list. The model requires the choice to be drawn from that list.
- There are no `IllegalBid`, `CardNotFound` or `NoContract` errors in the code. In particular, when every choice is drawn from the offered list, the auction with four seats cannot end without a contract: once three seats have passed, `Pass` is no longer offered, so the last active seat must bid (`Bidding.BiddingPhase.StartBidding`). A contractless end is then possible only at a three-seat table. Without that restriction a typed `Pass` at a pass count of 3 raises the count to 4 and leaves no bidder, a case the orchestration in bridgeBot/main.py handles and the model does not reach.

Modules: `Wrappers` (Option), `Lex` (Python string order), `Cards`, `Dealing`, `Sorting`, `Valuation`, `Players` and `Points` (the two `Player` classes), `Bids`, `Bidding`, `Tricks` and `Game`.

## Model

| member | source | states |
|---|---|---|
| Lex.Irreflexive | bridgeBot/game/game.py:148 | no rank string is greater than itself under the comparison `resolve_set` uses |
| Lex.Asymmetric | bridgeBot/game/game.py:148 | if rank a is below rank b, then b is not below a |
| Lex.Transitive | bridgeBot/game/game.py:152 | the rank comparison is transitive |
| Lex.Connected | bridgeBot/game/game.py:152 | any two different ranks are ordered one way or the other, so the comparison is a strict total order |
| Lex.LexicographicRanks | bridgeBot/game/game.py:148 | under this order "10" is below "2", "Ace" is below "King" and "Ace" is not below "2" |
| Cards.NewDeck | game/core.py:31-32 | the comprehension over suits, then ranks, yields `|suits| * |ranks|` cards; `NewDeckAt` gives each position, `NewDeckMembers` the membership and `NewDeckDistinct` the absence of duplicates |
| Cards.NewDeckAt | game/core.py:31-32 | the card at position `i * |ranks| + j` is rank j of suit i (suit-major, then rank order) |
| Cards.NewDeckMembers | game/core.py:31-32 | a card is in the deck iff its rank is a rank and its suit is a suit |
| Cards.NewDeckDistinct | game/core.py:31-32 | with distinct suits and ranks, no card appears twice |
| Cards.BridgeDeck | game/core.py:31-32 | the `Deck()` of game/core.py has exactly 52 distinct cards, one per (rank, suit) pair |
| Cards.SymbolDeck | game/deck.py:9 | the deck of game/deck.py, before the shuffle, has exactly 52 distinct cards, one per (rank, suit) pair |
| Dealing.Stride | bridgeBot/game/core.py:60 | the slice `cards[i::n]` holds only cards of the deck; `StrideIndex`, `StrideFind` and `StrideLength` give its exact contents and length |
| Dealing.Deal | bridgeBot/game/core.py:60 | `deal(n)` gives n hands (none when n is not positive), holding only cards of the deck; `DealPlaces`, `FoundInHand`, `DealPartition` and `DealMultiset` show every card goes to exactly one hand |
| Dealing.StrideIndex | bridgeBot/game/core.py:60 | every deck position `i + k*n` is place k of `cards[i::n]` |
| Dealing.StrideFind | bridgeBot/game/core.py:60 | every card of `cards[i::n]` comes from some deck position `i + k*n` |
| Dealing.StrideLength | bridgeBot/game/core.py:60 | `cards[i::n]` has `len // n` elements, plus one when `i < len % n` |
| Dealing.DealHand | bridgeBot/game/core.py:60 | `deal(n)` returns n hands, and hand i is `cards[i::n]` |
| Dealing.DealSizes | game/core.py:48 | hand i has `len // n` cards, plus one if `i < len % n`, so hand sizes differ by at most 1 |
| Dealing.DealFour | game/deck.py:13 | 52 cards dealt to 4 hands give 13 cards to each hand |
| Dealing.DealPlaces | bridgeBot/game/core.py:60 | the card at position j goes to hand `j % n`, at place `j // n` |
| Dealing.FoundInHand | bridgeBot/game/core.py:60 | every card of hand i comes from a position j of the deck with `j % n == i` |
| Dealing.DealPartition | game/deck.py:13 | with distinct cards, every card of the deck is in exactly one hand, hand `j % n` |
| Dealing.DealMultiset | bridgeBot/game/core.py:60 | the hands together hold exactly the cards of the deck, each as often as in the deck |
| Sorting.IndexOf | bridgeBot/game/core.py:73-74 | `list.index`: for a present element, the position of its first occurrence (no earlier position holds it); for an absent one it returns the length, and its callers require membership, as `sort_deck` does |
| Sorting.KeyIsLexicographic | bridgeBot/game/core.py:73-74 | the numeric sort key orders cards by suit index first and then by rank index, the tuple order of the sort key |
| Sorting.KeyInjective | bridgeBot/game/core.py:73-74 | two cards with known suit and rank that share a key are the same card |
| Sorting.SortDeck | bridgeBot/game/core.py:73-76 | `sort_deck` sorts the given array in place by (suit index, rank index), returns that same array and keeps its multiset of cards; every suit and rank must be known |
| Valuation.Honour | bridgeBot/game/core.py:112-118 | `value_dict.get(rank, 0)`: at most 4 points, and points only for the ace, king, queen or jack name |
| Valuation.HandScore | bridgeBot/game/core.py:112-123 | honour points plus the long-suit bonus, at most 4 per card plus one per suit; `HandScorePermutation` and `HandScoreBounds` state its order independence and bonus range |
| Valuation.TallyAppend | bridgeBot/game/core.py:118 | a per-card sum over a concatenation is the sum of the two parts |
| Valuation.TallyPermutation | bridgeBot/game/core.py:118 | a per-card sum does not depend on the order of the cards |
| Valuation.LongSuitsPermutation | bridgeBot/game/core.py:119-123 | the long-suit bonus does not depend on the order of the cards |
| Valuation.HandScorePermutation | bridgeBot/game/core.py:118-123 | the hand value is the same for any reordering of the hand |
| Valuation.LongSuitsBound | game/player.py:17 | the long-suit bonus is at most the number of suits |
| Valuation.LongSuitsEmpty | game/core.py:87 | an empty hand has no long suit |
| Valuation.HandScoreBounds | game/core.py:80-87 | honour points plus a bonus in 0..4; an empty hand scores 0 |
| Valuation.HonourPointsBound | game/core.py:80 | honour points are at most 4 per card |
| Valuation.CountSuits | bridgeBot/game/core.py:119-121 | the `suit_counts` loop leaves one counter per suit, holding the number of cards of that suit |
| Valuation.CountLongSuits | bridgeBot/game/core.py:123 | the bonus loop counts exactly the suits with five or more cards |
| Players.Player.constructor | bridgeBot/game/core.py:94-99 | a new player has its name and order, an empty hand, no sets won and no threshold |
| Players.Player.ReceiveHand | bridgeBot/game/core.py:101-103 | the hand is replaced wholesale and nothing else changes |
| Players.Player.HandValue | bridgeBot/game/core.py:105-123 | the loops compute honour points plus one per suit with five or more cards, the value `HandScore` defines; every suit must be one of the four (the older `Player` in game/core.py:72-87 computes the same) |
| Players.NewPlayers | game/core.py:102 | the i-th name gets seat order i+1, so the orders are distinct, and every player starts with an empty hand, no sets won and no threshold |
| Points.Player.constructor | game/player.py:6-7 | the player holds the given hand |
| Points.Player.CalculatePoints | game/player.py:9-19 | one loop accumulates 'A' 4, 'K' 3, 'Q' 2, 'J' 1 plus one per suit of five or more cards; every suit must be one of the four symbols |
| Bids.StrainScore | bridgeBot/game/bidding.py:99-106 | the strain score is in 1..5, and it is the strain's position in Clubs, Diamonds, Hearts, Spades, No Trump |
| Bids.BidValue | bridgeBot/game/bidding.py:85-106 | `level * 10 + score`: the level and the strain can be read back from the value (its tens and its units), so the value is a faithful encoding |
| Bids.Value | bridgeBot/game/bidding.py:106 | the value of a contract bid, from which its level and strain can be read back |
| Bids.StrainScoreInjective | game/bidding.py:99-107 | different strains score differently |
| Bids.BidValueOrder | bridgeBot/game/bidding.py:106 | bid values order bids by level first, then by strain |
| Bids.BidValueInjective | game/bidding.py:107 | two bids have the same value iff they have the same level and strain |
| Bids.LevelBids | bridgeBot/game/bidding.py:79-82 | the inner loop's list holds contract bids only; `LevelBidsMembers` and `LevelBidsIncreasing` give its members and order |
| Bids.RangeBids | bridgeBot/game/bidding.py:78-82 | the nested loops' list holds contract bids only; `RangeBidsMembers` and `RangeBidsIncreasing` give its members and order |
| Bids.Offered | bridgeBot/game/bidding.py:64-83 | the offered list holds Pass at most in first place and contract bids after it; `PassOffered`, `ContractOffered`, `OfferedWellFormed` and `OfferedIncreasing` state the rest |
| Bids.LevelBidsMembers | bridgeBot/game/bidding.py:79-82 | the inner loop offers exactly the strains whose bid at that level is worth more than the highest bid |
| Bids.RangeBidsMembers | bridgeBot/game/bidding.py:78-82 | the nested loops offer exactly the bids with level in range worth more than the highest bid |
| Bids.PassOffered | bridgeBot/game/bidding.py:75 | Pass is offered iff fewer than three seats have passed, and then it is offered first |
| Bids.ContractOffered | game/bidding.py:74-81 | a bid is offered iff its level is between `max(numeric // 10, 1)` and 7, its strain is valid and it is worth more than the highest bid; for a stored level of 0..7 the lowest level is 1 |
| Bids.OfferedWellFormed | bridgeBot/game/bidding.py:75-82 | every offered bid is Pass or a level 1..7 bid worth more than the highest bid |
| Bids.LevelBidsIncreasing | bridgeBot/game/bidding.py:79-82 | within one level the offered bids are in strictly increasing value order |
| Bids.RangeBidsIncreasing | bridgeBot/game/bidding.py:78-82 | over all levels the offered bids are in strictly increasing value order |
| Bids.LevelBidsFull | bridgeBot/game/bidding.py:79-82 | the bids of one whole level are increasing and all of that level |
| Bids.IncreasingAppend | bridgeBot/game/bidding.py:82 | appending a list of higher bids keeps the list increasing |
| Bids.OfferedIncreasing | game/bidding.py:72-83 | the offered contract bids are in strictly increasing value order |
| Bidding.InactivePass | bridgeBot/game/bidding.py:53-55 | marking an active seat inactive raises the number of inactive seats by exactly one |
| Bidding.InactiveExtremes | bridgeBot/game/bidding.py:23-24 | no seat is inactive iff all are active, and all are inactive iff none is active |
| Bidding.Others | bridgeBot/game/bidding.py:116-118 | the candidate cards are exactly the cards held by some seat other than the bidder |
| Bidding.OtherPair | bridgeBot/game/bidding.py:153 | `team_2` is the two seats outside the bidder's team, in seat order |
| Bidding.LevelList | bridgeBot/game/bidding.py:79-82 | the inner loop builds the bids of one level above the highest bid |
| Bidding.LevelsList | bridgeBot/game/bidding.py:78-82 | the outer loop appends the levels from the current level to 7 in order |
| Bidding.BiddingPhase.Valid | bridgeBot/game/bidding.py:20-62 | the auction invariant: the pass count is the number of inactive seats and at most 3; until a bid the bid fields keep their initial values, afterwards they describe the bidder's contract of level 1..7; every method of the class keeps it |
| Bidding.BiddingPhase.constructor | bridgeBot/game/bidding.py:20-29 | every seat is active, nothing has been passed or bid, there is no trump or bidder, and the partnership map is empty |
| Bidding.BiddingPhase.CalculateAvailableBids | bridgeBot/game/bidding.py:64-83 | the loops build exactly the offered list: Pass first while fewer than three have passed, then every higher bid in level and strain order |
| Bidding.BiddingPhase.CollectBid | bridgeBot/game/bidding.py:42-62 | the bid is one of the offered; a Pass deactivates the seat, adds one pass and changes nothing else; a bid records level, strain, value and bidder, strictly raises the highest bid and leaves passes alone; the auction measure falls |
| Bidding.BiddingPhase.RecordPass | game/bidding.py:54-56 | a Pass: the seat becomes inactive, `pass_count` goes up by one, nothing else changes |
| Bidding.BiddingPhase.RecordContract | game/bidding.py:57-63 | a bid sets the level, the trump strain, the highest value and the bidder; `active` and `pass_count` are unchanged |
| Bidding.BiddingPhase.StartBidding | bridgeBot/game/bidding.py:31-40 | the auction is a run of sweeps (`Auction`): the first starts from the initial flags, each later one from the flags the one before left, every sweep but the last covers all seats, and each prompts exactly the seats active at its start, in seat order; there is no sweep exactly when three seats had already passed; a seat that has passed is never active again; the highest bid never falls, and the final bidder is the initial one or a seat some sweep prompted; the auction ends with exactly three passes and the pass count equal to the number of inactive seats; with four or more seats there is always a bidder (the older variant in game/bidding.py:27-40 has the same loop) |
| Bidding.BiddingPhase.PromptRound | bridgeBot/game/bidding.py:34-40 | one sweep over the seats: the seats prompted are exactly the seats active at its start below the seat where it stopped, in increasing seat order; it stops early (`closed`) exactly when it reaches an active seat after three passes with a bid standing; a seat not prompted keeps its flag and an inactive seat stays inactive; the highest bid does not fall and the bidder is the one from before or a seat prompted in the sweep; a sweep that does not close lowers the auction measure |
| Bidding.AuctionStep | bridgeBot/game/bidding.py:33-34 | after a run of full sweeps, one more sweep from the flags they left extends the auction |
| Bidding.ActiveSeats | bridgeBot/game/bidding.py:34-35 | the seats a sweep up to `k` visits: never more than `k` of them |
| Bidding.ActiveSeatsMembers | bridgeBot/game/bidding.py:34-35 | a seat is visited exactly when it is below `k` and its flag is set |
| Bidding.ActiveSeatsIncreasing | bridgeBot/game/bidding.py:34 | the visited seats come in strictly increasing seat order |
| Bidding.SomeoneToPrompt | bridgeBot/game/bidding.py:33-35 | while fewer seats than all are inactive, a full sweep prompts at least one seat |
| Bidding.SortedOthers | bridgeBot/game/bidding.py:116-118 | the candidate cards are sorted by (suit, rank) and are a permutation of the other seats' cards |
| Bidding.FindOwner | bridgeBot/game/bidding.py:141-145 | the owner is the first seat holding the named card |
| Bidding.BiddingPhase.FormTeams | bridgeBot/game/bidding.py:147-163 | thresholds and the partnership map satisfy `Teams` |
| Bidding.NewTeams | bridgeBot/game/bidding.py:147-163 | the thresholds and map that `select_partner` writes satisfy `Teams` |
| Bidding.BiddingPhase.SelectPartner | bridgeBot/game/bidding.py:108-163 | the candidates are the other seats' cards in sorted order; the partner is not the bidder and holds the named card; bidder and partner get `level + 6`, the other two `8 - level`; the map pairs all four seats symmetrically and nobody with themselves (likewise in game/bidding.py:109-164) |
| Bidding.Teams | bridgeBot/game/bidding.py:147-163 | the teams after partner selection: bidder and partner must take `level + 6` sets, the others `8 - level`, and the map pairs the four seats symmetrically; `TeamsFormed`, `TeamsPaired` and `TeamsThresholds` prove it of `select_partner`'s writes |
| Bidding.TeamsFormed | game/bidding.py:148-164 | the threshold and map updates of `select_partner` establish `Teams` |
| Bidding.TeamsPaired | bridgeBot/game/bidding.py:158-163 | the map update pairs every seat with a different seat, symmetrically |
| Bidding.TeamsThresholds | bridgeBot/game/bidding.py:147-156 | the threshold of a seat and that of any opponent sum to 14 |
| Tricks.OfSuit | bridgeBot/game/game.py:111 | the same-suit filter is no longer than the hand and holds only cards of that suit |
| Tricks.Legal | bridgeBot/game/game.py:96-113 | the legal cards are the whole hand or only cards of the lead suit, and there are some exactly when the hand is not empty |
| Tricks.OfSuitMembers | bridgeBot/game/game.py:111 | the same-suit filter keeps exactly the hand's cards of that suit |
| Tricks.OfSuitNone | bridgeBot/game/game.py:111 | with no card of the suit the filter is empty |
| Tricks.LegalWithLead | bridgeBot/game/game.py:96-113 | with a lead card, the legal cards are the hand's cards of the lead suit if any, otherwise the whole hand |
| Tricks.LegalWithoutLead | bridgeBot/game/game.py:111 | with an empty set the whole hand is legal |
| Tricks.LegalInHand | bridgeBot/game/game.py:96-113 | the legal cards are a sub-multiset of the hand, non-empty iff the hand is |
| Tricks.RemoveFirst | bridgeBot/game/game.py:125 | removing a held card shortens the hand by one |
| Tricks.RemoveFirstCount | bridgeBot/game/game.py:125 | exactly one occurrence of the card leaves the hand and the rest is kept |
| Tricks.RemoveFirstAt | bridgeBot/game/game.py:125 | the removed card is the first occurrence, and the cards before and after it keep their order |
| Tricks.Rotate | bridgeBot/game/game.py:71-72 | the seat playing at offset o from the leader is `(leader + o) % n` |
| Tricks.Turn | bridgeBot/game/game.py:71-72 | every seat has an offset from the leader |
| Tricks.RotationOnce | bridgeBot/game/game.py:71-74 | different offsets give different seats, so each seat plays exactly once a round |
| Tricks.OpeningLeader | bridgeBot/game/game.py:49-52 | the opening leader is a seat, and with four seats and a suit as trump it is not the bidder |
| Tricks.Beats | bridgeBot/game/game.py:148-155 | a card displaces the highest card so far only if it is a trump or of that card's suit |
| Tricks.BeatsAsymmetric | bridgeBot/game/game.py:148-155 | of two cards at most one displaces the other |
| Tricks.Winner | bridgeBot/game/game.py:139-157 | a set has a winner exactly when it is not empty; `WinnerPlayed` and `WinningCard` say who wins |
| Tricks.Best | bridgeBot/game/game.py:143-155 | the best card so far is one of the cards seen so far |
| Tricks.WinnerPlayed | bridgeBot/game/game.py:139-157 | a non-empty set always has a winner, and it is a seat that played in the set |
| Tricks.BestTrump | bridgeBot/game/game.py:148-151 | once a trump is played the best card is a trump |
| Tricks.BestLead | bridgeBot/game/game.py:152-155 | with no trump played the best card has the lead suit |
| Tricks.BestMaximal | bridgeBot/game/game.py:148-155 | no card of the best card's suit outranks it |
| Tricks.WinningCard | bridgeBot/game/game.py:143-155 | the winning card is a trump if any was played, otherwise of the lead suit, and it is rank-maximal in its suit, so off-suit cards never win |
| Tricks.RuffWins | bridgeBot/game/game.py:148-151 | a low trump beats the lead suit |
| Tricks.NineBeatsTen | bridgeBot/game/game.py:152 | under the string comparison a 9 of the lead suit beats a 10 |
| Tricks.ResolveSet | bridgeBot/game/game.py:129-157 | the one-pass loop returns the winner `Winner` defines |
| Game.GamePhase.constructor | bridgeBot/game/game.py:22-40 | the play phase takes over hands, thresholds, partnership, trump and bidder, with no sets won yet |
| Game.GamePhase.PlayCard | bridgeBot/game/game.py:84-127 | the card played is legal and held, and exactly one occurrence of it leaves that seat's hand; nothing else changes |
| Game.GamePhase.PlayPlays | bridgeBot/game/game.py:71-74 | every seat plays once, in seat order from the leader, a legal card that then leaves its hand |
| Game.GamePhase.PlayRound | bridgeBot/game/game.py:63-80 | a whole round is played from the leader; the set is appended once to `sets` and once to the sets won by the last seat to play; the set winner is recorded; every hand is one card shorter |
| Game.GamePhase.RecordSet | bridgeBot/game/game.py:77-79 | the set is appended to `sets` and to the sets won by the last seat to play, and the winner is recorded |
| Game.GamePhase.NextLeader | bridgeBot/game/game.py:57-59 | one round is played from a state that is not over: the next leader is the winner of the set just played, every hand loses one card, and the recorded play history grows by that round |
| Game.GamePhase.PlayGame | bridgeBot/game/game.py:42-61 | play stops at the first state where `is_game_over` holds: every earlier state was not over and each step between states is one legal round; the final state is over; the first set is led by the opening leader and each later set by the previous set's winner; the sets played are appended to `sets` |
| Game.GamePhase.PlayFrom | bridgeBot/game/game.py:57-59 | the play loop from a given leader: the same history and stopping statement as `PlayGame`, with that leader first |
| Game.GamePhase.IsGameOver | bridgeBot/game/game.py:159-175 | `is_game_over`: some seat's sets plus its partner's equal that seat's threshold, or every hand is empty; `NotOverPlayable` and `OverByOneTeam` state its consequences |
| Game.GamePhase.NotOverPlayable | bridgeBot/game/game.py:159-175 | a game that is not over, with hands of equal length, can play another round: every seat still holds a card |
| Game.GamePhase.OverByOneTeam | bridgeBot/game/game.py:171-173 | under the teams `select_partner` forms and at most 13 sets won, a game that ends while cards remain was ended by one whole team: a seat and its partner have both reached their threshold and no opponent has |
| Game.HandsLeft | bridgeBot/game/game.py:175 | when all hands have the same length and not all are empty, every hand still holds a card, so the next round can be played |
| Game.RoundStep | bridgeBot/game/game.py:71-74 | one more play keeps the round in seat order and legal |
| Game.RoundDone | bridgeBot/game/game.py:71-74 | after a whole round every hand is one card shorter, the leader played first and the seat before the leader played last |
| Game.PlayedStep | bridgeBot/game/game.py:57-59 | one more round, played from a state that is not over and led by the last set's winner, extends a valid play history |
| Game.OverWithCards | bridgeBot/game/game.py:171-175 | an over state in which some hand still holds cards names a seat that has reached its threshold |
| Game.TeamEnds | bridgeBot/game/game.py:171-173 | under the `select_partner` teams and at most 13 sets, a seat that reached its threshold has a partner that did too, and no opponent did |
| Game.PartnersFinishTogether | bridgeBot/game/game.py:171-173 | under the partnerships `select_partner` forms, a seat reaches its threshold exactly when its partner does |
| Game.OneTeamReaches | bridgeBot/game/game.py:171-173 | with at most 13 sets in all, the two teams cannot both reach their thresholds |

## Left out

- Shuffling (`random.shuffle`) is randomness. Dealing and sorting work on any given sequence of cards.
- The re-deal loops in the setup phases depend on repeated shuffles and are unbounded, so they are not modelled.
- Console input and output are not modelled. This covers prompts, `bid.title()` and `split`, and `int(input())`. Bids and cards are chosen by function parameters, and the partner card index is a parameter.
- The database card store and configuration (`bridgeBot/models/Card.py`, `bridgeBot/utils/`) are not modelled. Cards are given as values, and the storage id of the bridgeBot `Card` is dropped.
- Orchestration and re-exports (`main.py`, `bridgeBot/main.py`, the `__init__.py` files) are not part of this model.
- A card has no identity: two equal cards are the same card. The code compares `Card` objects by identity, which coincides with this for a deck of distinct cards.
- Game.GamePhase.PlayCard: the legal cards are offered in hand order, not in the display order of the `rank_value` sort. The chooser may pick any legal card, so only the membership of the offered list is modelled. The display sort raises `ValueError` or `KeyError` for a suit outside `SUITS` or a rank outside its `rank_value` table; `PlayCard` and `Legal` accept such hands, so that failure is not modelled.
- Sorting.SortDeck: stability of Python's sort is not stated. Sorting is proved only up to equal keys, and with known suits and ranks equal keys mean equal cards.
- Bidding.SortedOthers: the older variant sorts by `rank_value`, which orders the ranks like the `RANKS` list. It is modelled with the same sort.
- Negative Python indices (a partner card index of 0 typed at the console becomes -1) are excluded by the index precondition.
- A key that is not in a dictionary raises `KeyError` in the source: an unknown suit in `hand_value`, an unknown strain in `calculate_bid_value`. These are preconditions in the model.
- Bidding.BiddingPhase.StartBidding: with fewer than three seats the source loops forever, so three seats are required. The contract does not state that the final bidder is still active. Its sweeps are returned as ghost values. It does not list the bid each prompt chose: `CollectBid` states that per prompt.
- Bidding.BiddingPhase.SelectPartner: requires exactly four seats, which is a choice of the model: `team_2[0]` and `team_2[1]` only need four or more, but with five seats the code pairs just two of the other three seats and `is_game_over` then raises `KeyError`. It also requires cards held by one seat only. A `None` partner, when the card is not found, cannot arise from the candidate list and is not modelled.
- Game.GamePhase: the phases keep per-seat sequences rather than `Player` objects, so the aliasing of `Player` objects between phases is not modelled.
- Tricks.ResolveSet: it is a module-level method that takes the trump as a parameter, instead of reading `self.trump_suit`.
- Game.GamePhase.PlayGame: returns its sequence of leaders and its history of states as ghost values. The printed messages are dropped.
- Game.GamePhase.PlayGame: requires all hands to have the same length. With unequal hands the code eventually prompts a seat with an empty hand and fails at `hand[card_index]`; that failure is not modelled.
- Dealing: `deal` is a function of the deck, so it cannot change the deck.

=== FILE: bidding.dfy ===
/**
 * The auction. Seats are numbered 0 .. n-1; each seat's hand and threshold
 * are entries of the phase's sequences. Console input is a chooser that
 * picks one of the bids offered to a seat, or the index of the partner card.
 */
module Bidding {
  import opened Wrappers
  import opened Cards
  import opened Bids
  import opened Sorting

  /** The number of seats that have passed. */
  function Inactive(active: seq<bool>): (count: nat)
    ensures count <= |active|
  {
    if |active| == 0 then 0
    else Inactive(active[..|active| - 1]) + (if active[|active| - 1] then 0 else 1)
  }

  /** A pass by an active seat adds one to the count. */
  lemma {:induction false} InactivePass(active: seq<bool>, seat: nat)
    requires seat < |active| && active[seat]
    ensures Inactive(active[seat := false]) == Inactive(active) + 1
    decreases |active|
  {
    var n := |active| - 1;
    if seat == n {
      assert active[seat := false][..n] == active[..n];
    } else {
      assert active[seat := false][..n] == active[..n][seat := false];
      InactivePass(active[..n], seat);
    }
  }

  /** Nobody has passed exactly when every seat is active, and everybody has exactly when none is. */
  lemma {:induction false} InactiveExtremes(active: seq<bool>)
    ensures Inactive(active) == 0 <==> forall s :: 0 <= s < |active| ==> active[s]
    ensures Inactive(active) == |active| <==> forall s :: 0 <= s < |active| ==> !active[s]
    decreases |active|
  {
    if |active| > 0 {
      var n := |active| - 1;
      InactiveExtremes(active[..n]);
      assert forall s :: 0 <= s < n ==> active[..n][s] == active[s];
    }
  }

  /** The seats below k whose flag is set, in increasing order. */
  function ActiveSeats(active: seq<bool>, k: nat): (seats: seq<nat>)
    requires k <= |active|
    ensures |seats| <= k
  {
    if k == 0 then []
    else
      var rest := ActiveSeats(active, k - 1);
      if active[k - 1] then rest + [k - 1] else rest
  }

  /** A seat is listed exactly when it is below k and its flag is set. */
  lemma {:induction false} ActiveSeatsMembers(active: seq<bool>, k: nat)
    requires k <= |active|
    ensures forall s :: s in ActiveSeats(active, k) <==> 0 <= s < k && active[s]
  {
    if k > 0 {
      var rest := ActiveSeats(active, k - 1);
      ActiveSeatsMembers(active, k - 1);
      if active[k - 1] {
        assert ActiveSeats(active, k) == rest + [k - 1];
        forall s
          ensures s in rest + [k - 1] <==> s in rest || s == k - 1
        {
        }
      } else {
        assert ActiveSeats(active, k) == rest;
      }
    }
  }

  /** The seats come in increasing order, each once. */
  lemma {:induction false} ActiveSeatsIncreasing(active: seq<bool>, k: nat)
    requires k <= |active|
    ensures forall i, j :: 0 <= i < j < |ActiveSeats(active, k)| ==> ActiveSeats(active, k)[i] < ActiveSeats(active, k)[j]
  {
    if k > 0 {
      var rest := ActiveSeats(active, k - 1);
      ActiveSeatsIncreasing(active, k - 1);
      ActiveSeatsMembers(active, k - 1);
      if active[k - 1] {
        assert forall i :: 0 <= i < |rest| ==> rest[i] in rest;
        assert ActiveSeats(active, k) == rest + [k - 1];
      }
    }
  }

  /** While fewer seats have passed than there are seats, a full sweep prompts somebody. */
  lemma SomeoneToPrompt(active: seq<bool>)
    requires Inactive(active) < |active|
    ensures |ActiveSeats(active, |active|)| > 0
  {
    InactiveExtremes(active);
    var s :| 0 <= s < |active| && active[s];
    ActiveSeatsMembers(active, |active|);
  }

  /**
   * A sweep has reached `seat`: it prompted exactly the seats below it that
   * were active at the start, a prompt cleared at most its own seat's flag,
   * and the seats from `seat` on are untouched.
   */
  ghost predicate SweptTo(start: seq<bool>, now: seq<bool>, seat: nat, prompted: seq<nat>)
  {
    && |now| == |start| && seat <= |start| && prompted == ActiveSeats(start, seat)
    && (forall s :: seat <= s < |now| ==> now[s] == start[s])
    && (forall s :: 0 <= s < seat && !start[s] ==> !now[s])
  }

  /** Before the first seat, nothing is prompted and every flag is as it was. */
  lemma SweepStarts(start: seq<bool>)
    ensures SweptTo(start, start, 0, [])
  {
  }

  /** Passing one more seat, prompting it when it is active, extends the sweep. */
  lemma SweepStep(start: seq<bool>, now: seq<bool>, next: seq<bool>, seat: nat, prompted: seq<nat>, prompted2: seq<nat>)
    requires SweptTo(start, now, seat, prompted) && seat < |start|
    requires |next| == |now| && forall s :: 0 <= s < |now| && s != seat ==> next[s] == now[s]
    requires !now[seat] ==> next == now
    requires prompted2 == if now[seat] then prompted + [seat] else prompted
    ensures SweptTo(start, next, seat + 1, prompted2)
  {
  }

  /**
   * After a sweep up to `stop`, a seat outside the prompted list still has
   * its flag: below `stop` it was inactive and stayed so, from `stop` on it
   * was not reached.
   */
  lemma UnpromptedUnchanged(start: seq<bool>, now: seq<bool>, prompted: seq<nat>, stop: nat)
    requires SweptTo(start, now, stop, prompted)
    ensures forall s :: 0 <= s < |now| && s !in prompted ==> now[s] == start[s]
    ensures forall s :: 0 <= s < |now| && !start[s] ==> !now[s]
  {
    ActiveSeatsMembers(start, stop);
  }

  /**
   * One whole sweep, from the flags `start` to the flags `end`: it prompted
   * the seats active at its start below `stop`, in seat order, and every
   * other seat kept its flag.
   */
  ghost predicate Swept(start: seq<bool>, end: seq<bool>, prompted: seq<nat>, stop: nat)
  {
    && |end| == |start| && stop <= |start| && prompted == ActiveSeats(start, stop)
    && (forall s :: 0 <= s < |end| && s !in prompted ==> end[s] == start[s])
  }

  /**
   * The sweeps of an auction, in order: sweep k starts from the flags the
   * sweep before it left (the last one leaves `final`), and every sweep but
   * the last ran over all the seats.
   */
  ghost predicate Auction(starts: seq<seq<bool>>, sweeps: seq<seq<nat>>, stops: seq<nat>, final: seq<bool>)
  {
    && |starts| == |sweeps| == |stops|
    && (forall k :: 0 <= k < |starts| ==> SweepAt(starts, sweeps, stops, final, k))
    && (forall k :: 0 <= k < |starts| - 1 ==> stops[k] == |starts[k]|)
  }

  /** Sweep k of an auction ends where the next one starts, or at `final`. */
  ghost predicate SweepAt(starts: seq<seq<bool>>, sweeps: seq<seq<nat>>, stops: seq<nat>, final: seq<bool>, k: nat)
  {
    && k < |starts| && k < |sweeps| && k < |stops|
    && Swept(starts[k], if k + 1 < |starts| then starts[k + 1] else final, sweeps[k], stops[k])
  }

  /** A full last sweep followed by one more sweep from the flags it left extends the auction. */
  lemma AuctionStep(starts: seq<seq<bool>>, sweeps: seq<seq<nat>>, stops: seq<nat>, now: seq<bool>,
                    next: seq<bool>, prompted: seq<nat>, stop: nat)
    requires Auction(starts, sweeps, stops, now)
    requires forall k :: 0 <= k < |stops| ==> stops[k] == |starts[k]|
    requires Swept(now, next, prompted, stop)
    ensures Auction(starts + [now], sweeps + [prompted], stops + [stop], next)
  {
    var starts2, sweeps2, stops2 := starts + [now], sweeps + [prompted], stops + [stop];
    forall k | 0 <= k < |starts2|
      ensures SweepAt(starts2, sweeps2, stops2, next, k)
    {
      if k < |starts| {
        assert SweepAt(starts, sweeps, stops, now, k);
      }
    }
  }

  /** The cards of every seat but `bidder` among the first k seats, seat by seat. */
  function OthersUpTo(hands: seq<seq<Card>>, bidder: nat, k: nat): seq<Card>
    requires k <= |hands|
  {
    if k == 0 then []
    else OthersUpTo(hands, bidder, k - 1) + (if k - 1 != bidder then hands[k - 1] else [])
  }

  /** The partner candidates: the cards of every seat but the bidder's, seat by seat. */
  function Others(hands: seq<seq<Card>>, bidder: nat): (cards: seq<Card>)
    ensures forall c :: c in cards <==> exists p :: 0 <= p < |hands| && p != bidder && c in hands[p]
  {
    forall c ensures c in OthersUpTo(hands, bidder, |hands|) <==> exists p :: 0 <= p < |hands| && p != bidder && c in hands[p] {
      OthersMembers(hands, bidder, |hands|, c);
    }
    OthersUpTo(hands, bidder, |hands|)
  }

  /** Membership in the prefix built so far, by induction on k; `Others` states it for all seats. */
  lemma {:induction false} OthersMembers(hands: seq<seq<Card>>, bidder: nat, k: nat, c: Card)
    requires k <= |hands|
    ensures c in OthersUpTo(hands, bidder, k) <==> exists p :: 0 <= p < k && p != bidder && c in hands[p]
  {
    if k > 0 {
      OthersMembers(hands, bidder, k - 1, c);
    }
  }

  /** No card is held by two seats. */
  predicate HandsDisjoint(hands: seq<seq<Card>>)
  {
    forall p, q, c :: 0 <= p < |hands| && 0 <= q < |hands| && p != q && c in hands[p] ==> c !in hands[q]
  }

  /** The seats below k that are in neither of two teams, in seat order. */
  function SeatsOutside(k: nat, a: nat, b: nat): seq<nat>
  {
    if k == 0 then [] else SeatsOutside(k - 1, a, b) + (if k - 1 != a && k - 1 != b then [k - 1] else [])
  }

  /** At a four-seat table the two seats outside a pair are the other two, in order. */
  lemma OtherPair(a: nat, b: nat)
    requires a < 4 && b < 4 && a != b
    ensures |SeatsOutside(4, a, b)| == 2
    ensures SeatsOutside(4, a, b)[0] < SeatsOutside(4, a, b)[1] < 4
    ensures forall s :: s in SeatsOutside(4, a, b) ==> s != a && s != b
    ensures forall s :: 0 <= s < 4 ==> s == a || s == b || s in SeatsOutside(4, a, b)
  {
    assert SeatsOutside(1, a, b) == if a != 0 && b != 0 then [0] else [];
    assert SeatsOutside(2, a, b) == SeatsOutside(1, a, b) + if a != 1 && b != 1 then [1] else [];
    assert SeatsOutside(3, a, b) == SeatsOutside(2, a, b) + if a != 2 && b != 2 then [2] else [];
  }

  /** The inner loop of the offered list: one level's contracts above `highest`. */
  method LevelList(level: int, highest: int) returns (bids: seq<Bid>)
    ensures bids == LevelBids(level, STRAINS, highest)
  {
    var strains := STRAINS;
    bids := [];
    var k := 0;
    while k < |strains|
      invariant k <= |strains|
      invariant bids == LevelBids(level, strains[..k], highest)
    {
      assert strains[..k + 1][..k] == strains[..k];
      var value := BidValue(level, strains[k]);
      if value > highest {
        bids := bids + [Contract(level, strains[k])];
      }
      k := k + 1;
    }
    assert strains[..k] == STRAINS;
  }

  /** The outer loop of `calculate_available_bids`: the levels from `lo` to 7, one after another. */
  method LevelsList(lo: int, highest: int) returns (bids: seq<Bid>)
    ensures bids == RangeBids(lo, 8, highest)
  {
    bids := [];
    var i := lo;
    while i < 8
      invariant i == lo || lo < i <= 8
      invariant bids == RangeBids(lo, i, highest)
    {
      var level := LevelList(i, highest);
      bids := bids + level;
      i := i + 1;
    }
    assert RangeBids(lo, i, highest) == RangeBids(lo, 8, highest);
  }

  class BiddingPhase {
    var hands: seq<seq<Card>>
    var thresholds: seq<Option<int>>
    var active: seq<bool>
    var passCount: int
    /** The level of the last contract bid (`numeric_bid`, `highest_numeric_bid`). */
    var numericBid: int
    var trumpSuit: Option<string>
    /** The value of the last contract bid. */
    var highestBid: int
    var trumpBidder: Option<nat>
    var partnership: map<nat, nat>

    /**
     * The pass count is the number of inactive seats; until somebody bids,
     * the bid fields keep their initial values, and afterwards they describe
     * the bidder's contract.
     */
    predicate Valid()
      reads this
    {
      && |active| == |hands| == |thresholds|
      && passCount == Inactive(active) && passCount <= 3
      && 0 <= numericBid <= 7 && 0 <= highestBid <= 75
      && (trumpBidder.None? ==> highestBid == 0 && numericBid == 0 && trumpSuit.None?)
      && (trumpBidder.Some? ==>
            && trumpBidder.value < |active|
            && trumpSuit.Some? && trumpSuit.value in STRAINS
            && 1 <= numericBid
            && highestBid == BidValue(numericBid, trumpSuit.value))
    }

    /** Every seat starts active; no pass, no bid, no partnership. */
    constructor (hands: seq<seq<Card>>, thresholds: seq<Option<int>>)
      requires |thresholds| == |hands|
      ensures Valid()
      ensures this.hands == hands && this.thresholds == thresholds
      ensures |active| == |hands| && forall s :: 0 <= s < |hands| ==> active[s]
      ensures passCount == 0 && numericBid == 0 && highestBid == 0
      ensures trumpSuit == None && trumpBidder == None && partnership == map[]
    {
      this.hands := hands;
      this.thresholds := thresholds;
      active := seq(|hands|, _ => true);
      passCount := 0;
      numericBid := 0;
      trumpSuit := None;
      highestBid := 0;
      trumpBidder := None;
      partnership := map[];
      new;
      InactiveExtremes(active);
    }

    /** The offered list, built level by level and strain by strain. */
    method CalculateAvailableBids() returns (bids: seq<Bid>)
      ensures bids == Offered(passCount, numericBid, highestBid)
    {
      var highest := highestBid;
      var head := if passCount < 3 then [Pass] else [];
      var contracts := LevelsList(Max(numericBid / 10, 1), highest);
      bids := head + contracts;
    }

    function Measure(): int
      reads this
    {
      (|active| - passCount) * 76 + (75 - highestBid)
    }

    /**
     * One prompt: the seat picks a bid from the offered list. A pass makes
     * the seat inactive and counts it; a contract records level, strain,
     * value and bidder. A contract taken from the list always raises the
     * highest bid.
     */
    method CollectBid(seat: nat, choose: (nat, seq<Bid>) -> nat) returns (bid: Bid)
      requires Valid()
      requires seat < |active| && active[seat]
      requires passCount < 3 || trumpBidder.None?
      requires forall s, offered :: |offered| > 0 ==> choose(s, offered) < |offered|
      modifies this
      ensures Valid()
      ensures bid in Offered(old(passCount), old(numericBid), old(highestBid))
      ensures hands == old(hands) && thresholds == old(thresholds) && partnership == old(partnership)
      ensures bid.Pass? ==>
        && active == old(active)[seat := false] && passCount == old(passCount) + 1
        && numericBid == old(numericBid) && trumpSuit == old(trumpSuit)
        && highestBid == old(highestBid) && trumpBidder == old(trumpBidder)
      ensures bid.Contract? ==>
        && active == old(active) && passCount == old(passCount)
        && numericBid == bid.level && trumpSuit == Some(bid.strain)
        && IsContract(bid) && highestBid == Value(bid) && trumpBidder == Some(seat)
        && highestBid > old(highestBid)
      ensures Measure() < old(Measure())
    {
      var offered := CalculateAvailableBids();
      if passCount < 3 {
        PassOffered(passCount, numericBid, highestBid);
      } else {
        ContractOffered(passCount, numericBid, highestBid, 1, "Clubs");
      }
      bid := offered[choose(seat, offered)];
      OfferedWellFormed(passCount, numericBid, highestBid, bid);
      if bid.Pass? {
        PassOffered(passCount, numericBid, highestBid);
        RecordPass(seat);
      } else {
        RecordContract(seat, bid);
      }
    }

    /** A pass: the seat drops out and is counted; nothing else changes. */
    method RecordPass(seat: nat)
      requires Valid() && seat < |active| && active[seat] && passCount < 3
      modifies this
      ensures Valid()
      ensures active == old(active)[seat := false] && passCount == old(passCount) + 1
      ensures numericBid == old(numericBid) && trumpSuit == old(trumpSuit)
      ensures highestBid == old(highestBid) && trumpBidder == old(trumpBidder)
      ensures hands == old(hands) && thresholds == old(thresholds) && partnership == old(partnership)
    {
      InactivePass(active, seat);
      active := active[seat := false];
      passCount := passCount + 1;
    }

    /** A contract: its level, strain, value and bidder are recorded; the passes stay as they were. */
    method RecordContract(seat: nat, bid: Bid)
      requires Valid() && seat < |active|
      requires IsContract(bid) && 1 <= bid.level <= 7
      modifies this
      ensures Valid()
      ensures numericBid == bid.level && trumpSuit == Some(bid.strain)
      ensures highestBid == Value(bid) && trumpBidder == Some(seat)
      ensures active == old(active) && passCount == old(passCount)
      ensures hands == old(hands) && thresholds == old(thresholds) && partnership == old(partnership)
    {
      numericBid := bid.level;
      trumpSuit := Some(bid.strain);
      highestBid := BidValue(bid.level, bid.strain);
      trumpBidder := Some(seat);
    }

    /**
     * Rounds of prompts over the active seats, in seat order, until three
     * seats have passed; a round stops early when three have passed and
     * somebody holds a bid. Every prompt passes or raises the highest bid,
     * so the auction ends. With four or more seats somebody has always bid
     * by then; only a three-seat table can end without a contract.
     */
    method StartBidding(choose: (nat, seq<Bid>) -> nat)
      returns (ghost starts: seq<seq<bool>>, ghost sweeps: seq<seq<nat>>, ghost stops: seq<nat>)
      requires Valid() && |active| >= 3
      requires trumpBidder.None? ==> passCount == 0
      requires forall s, offered :: |offered| > 0 ==> choose(s, offered) < |offered|
      modifies this
      ensures Valid()
      ensures passCount == 3
      ensures |active| >= 4 ==> trumpBidder.Some?
      ensures hands == old(hands) && thresholds == old(thresholds) && partnership == old(partnership)
      ensures Auction(starts, sweeps, stops, active)
      ensures |starts| == 0 <==> old(passCount) == 3
      ensures |starts| > 0 ==> starts[0] == old(active)
      ensures |starts| == 0 ==> active == old(active)
      ensures forall s :: 0 <= s < |active| && !old(active)[s] ==> !active[s]
      ensures old(highestBid) <= highestBid
      ensures trumpBidder == old(trumpBidder) || (trumpBidder.Some? && exists k :: 0 <= k < |sweeps| && trumpBidder.value in sweeps[k])
    {
      InactiveExtremes(active);
      starts, sweeps, stops := [], [], [];
      while passCount < 3
        invariant Valid() && |active| == |old(active)|
        invariant hands == old(hands) && thresholds == old(thresholds) && partnership == old(partnership)
        invariant trumpBidder.None? ==> passCount == 0 || passCount == |active| == 3
        invariant Auction(starts, sweeps, stops, active)
        invariant forall k :: 0 <= k < |stops| ==> stops[k] == |starts[k]|
        invariant |starts| > 0 ==> starts[0] == old(active)
        invariant |starts| == 0 ==> active == old(active) && passCount == old(passCount)
        invariant old(passCount) == 3 ==> |starts| == 0
        invariant forall s :: 0 <= s < |active| && !old(active)[s] ==> !active[s]
        invariant old(highestBid) <= highestBid
        invariant trumpBidder == old(trumpBidder) || (trumpBidder.Some? && exists k :: 0 <= k < |sweeps| && trumpBidder.value in sweeps[k])
        decreases Measure()
      {
        // the sweep the current bidder was prompted in, if the bidder is new
        ghost var k: nat := |sweeps|;
        if trumpBidder != old(trumpBidder) {
          k :| 0 <= k < |sweeps| && trumpBidder.value in sweeps[k];
        }
        ghost var before, bidder := active, trumpBidder;
        var closed;
        ghost var prompted, stop;
        closed, prompted, stop := PromptRound(choose);
        AuctionStep(starts, sweeps, stops, before, active, prompted, stop);
        if trumpBidder != bidder {
          k := |sweeps|;
        }
        starts, sweeps, stops := starts + [before], sweeps + [prompted], stops + [stop];
        assert trumpBidder != old(trumpBidder) ==> k < |sweeps| && trumpBidder.value in sweeps[k];
        if closed {
          return;
        }
      }
    }

    /**
     * One pass of the `for` loop over the seats: each active seat is
     * prompted in seat order, unless three have passed and somebody holds a
     * bid, which closes the auction at that seat. `prompted` lists the seats
     * prompted, in order, and `stop` is the seat the sweep closed at (the
     * number of seats when it ran to the end). At least one seat is
     * prompted when the auction stays open, so the measure falls.
     */
    method PromptRound(choose: (nat, seq<Bid>) -> nat) returns (closed: bool, ghost prompted: seq<nat>, ghost stop: nat)
      requires Valid() && |active| >= 3 && passCount < 3
      requires trumpBidder.None? ==> passCount == 0
      requires forall s, offered :: |offered| > 0 ==> choose(s, offered) < |offered|
      modifies this
      ensures Valid() && |active| == |old(active)|
      ensures hands == old(hands) && thresholds == old(thresholds) && partnership == old(partnership)
      ensures stop <= |old(active)| && prompted == ActiveSeats(old(active), stop)
      ensures closed <==> stop < |old(active)|
      ensures closed ==> old(active)[stop] && passCount == 3 && trumpBidder.Some?
      ensures forall s :: 0 <= s < |active| && s !in prompted ==> active[s] == old(active)[s]
      ensures forall s :: 0 <= s < |active| && !old(active)[s] ==> !active[s]
      ensures old(highestBid) <= highestBid
      ensures trumpBidder == old(trumpBidder) || (trumpBidder.Some? && trumpBidder.value in prompted)
      ensures !closed ==> Measure() < old(Measure())
      ensures trumpBidder.None? ==> passCount == 0 || passCount == |active| == 3
    {
      ghost var start, measure := active, Measure();
      prompted := [];
      SweepStarts(start);
      if trumpBidder.None? {
        InactiveExtremes(active);
      }
      var seat := 0;
      while seat < |active|
        invariant Sweeping(start, seat, prompted, measure)
        invariant hands == old(hands) && thresholds == old(thresholds) && partnership == old(partnership)
        invariant RaisedSince(old(highestBid), old(trumpBidder), prompted)
      {
        if active[seat] {
          if trumpBidder.Some? && passCount == 3 {
            closed, stop := true, seat;
            UnpromptedUnchanged(start, active, prompted, stop);
            return;
          }
          PromptNext(seat, choose, start, prompted, measure, old(highestBid), old(trumpBidder));
          prompted := prompted + [seat];
        } else {
          SkipNext(seat, start, prompted, measure);
        }
        seat := seat + 1;
      }
      SomeoneToPrompt(start);
      closed, stop := false, seat;
      UnpromptedUnchanged(start, active, prompted, stop);
    }

    /**
     * The state of a sweep that has reached `seat`: the flags against the
     * sweep's start, the measure lowered once per prompt, and, while nobody
     * has bid, every seat so far passed and the rest are still active.
     */
    ghost predicate Sweeping(start: seq<bool>, seat: nat, prompted: seq<nat>, measure: int)
      reads this
    {
      && Valid() && |active| == |start| && SweptTo(start, active, seat, prompted)
      && Measure() <= measure - |prompted|
      && (trumpBidder.None? ==> passCount == seat && forall s :: 0 <= s < |active| ==> (active[s] <==> s >= seat))
    }

    /**
     * Since the sweep began, the highest bid has not fallen, and the bidder
     * is the one from before or a seat the sweep prompted.
     */
    ghost predicate RaisedSince(low: int, bidder: Option<nat>, prompted: seq<nat>)
      reads this
    {
      low <= highestBid && (trumpBidder == bidder || (trumpBidder.Some? && trumpBidder.value in prompted))
    }

    /** The sweep moves past an inactive seat without prompting it. */
    lemma SkipNext(seat: nat, start: seq<bool>, prompted: seq<nat>, measure: int)
      requires Sweeping(start, seat, prompted, measure) && seat < |active| && !active[seat]
      ensures Sweeping(start, seat + 1, prompted, measure)
    {
      SweepStep(start, active, active, seat, prompted, prompted);
    }

    /** The sweep prompts an active seat and moves past it. */
    method PromptNext(seat: nat, choose: (nat, seq<Bid>) -> nat, ghost start: seq<bool>, ghost prompted: seq<nat>,
                      ghost measure: int, ghost low: int, ghost bidder: Option<nat>)
      requires Sweeping(start, seat, prompted, measure) && seat < |active| && active[seat]
      requires RaisedSince(low, bidder, prompted)
      requires !(trumpBidder.Some? && passCount == 3)
      requires forall s, offered :: |offered| > 0 ==> choose(s, offered) < |offered|
      modifies this
      ensures Sweeping(start, seat + 1, prompted + [seat], measure)
      ensures hands == old(hands) && thresholds == old(thresholds) && partnership == old(partnership)
      ensures RaisedSince(low, bidder, prompted + [seat])
    {
      ghost var before := active;
      var bid := CollectBid(seat, choose);
      SweepStep(start, before, active, seat, prompted, prompted + [seat]);
    }

    /**
     * The bidder picks a card, by its place in the sorted list of the other
     * seats' cards; its holder becomes the partner. The bidder's team must
     * take level + 6 sets, the other team 8 - level, and each seat is paired
     * with its partner.
     */
    method SelectPartner(bidder: nat, cardIndex: int) returns (available: seq<Card>, partnerCard: Card, partner: nat)
      requires Valid() && |hands| == 4 && bidder < 4
      requires forall p, c :: 0 <= p < 4 && c in hands[p] ==> c.suit in SUITS && c.rank in RANKS
      requires HandsDisjoint(hands)
      requires 0 <= cardIndex < |Others(hands, bidder)|
      modifies this
      ensures Valid()
      ensures hands == old(hands) && active == old(active) && passCount == old(passCount)
      ensures numericBid == old(numericBid) && trumpSuit == old(trumpSuit)
      ensures highestBid == old(highestBid) && trumpBidder == old(trumpBidder)
      ensures |available| == |Others(hands, bidder)|
      ensures SortedByKey(available) && multiset(available) == multiset(Others(hands, bidder))
      ensures partnerCard == available[cardIndex]
      ensures partner < 4 && partner != bidder && partnerCard in hands[partner]
      ensures Teams(bidder, partner, numericBid, thresholds, partnership)
    {
      available := SortedOthers(hands, bidder);
      partnerCard := available[cardIndex];
      assert partnerCard in multiset(Others(hands, bidder));
      OthersMembers(hands, bidder, |hands|, partnerCard);
      var holder :| 0 <= holder < 4 && holder != bidder && partnerCard in hands[holder];
      partner := FindOwner(hands, partnerCard);
      assert partner == holder;
      FormTeams(bidder, partner);
    }

    /** The bidder's team and the other two seats get their thresholds and partners. */
    method FormTeams(bidder: nat, partner: nat)
      requires Valid() && |hands| == 4 && bidder < 4 && partner < 4 && bidder != partner
      modifies this
      ensures Valid()
      ensures hands == old(hands) && active == old(active) && passCount == old(passCount)
      ensures numericBid == old(numericBid) && trumpSuit == old(trumpSuit)
      ensures highestBid == old(highestBid) && trumpBidder == old(trumpBidder)
      ensures Teams(bidder, partner, numericBid, thresholds, partnership)
    {
      var teams := NewTeams(bidder, partner, numericBid, thresholds, partnership);
      thresholds := teams.0;
      partnership := teams.1;
    }
  }

  /**
   * The thresholds and partnership map after `select_partner`'s updates:
   * level + 6 for the bidder and partner, 8 - level for `team_2`, and the
   * four pairings.
   */
  function NewTeams(bidder: nat, partner: nat, level: int, thresholds: seq<Option<int>>, partnership: map<nat, nat>)
    : (teams: (seq<Option<int>>, map<nat, nat>))
    requires |thresholds| == 4 && bidder < 4 && partner < 4 && bidder != partner
    ensures Teams(bidder, partner, level, teams.0, teams.1)
  {
    OtherPair(bidder, partner);
    var team2 := SeatsOutside(4, bidder, partner);
    var u, v := team2[0], team2[1];
    assert u in team2 && v in team2;
    var th := thresholds[bidder := Some(level + 6)][partner := Some(level + 6)][u := Some(8 - level)][v := Some(8 - level)];
    var pm := partnership[bidder := partner][partner := bidder][u := v][v := u];
    TeamsFormed(bidder, partner, u, v, level, thresholds, th, partnership, pm);
    (th, pm)
  }

  /**
   * The teams after partner selection: the bidder and partner must take
   * level + 6 sets, the two others 8 - level, so a seat's threshold and an
   * opponent's add to 14; every seat is paired with a partner other than
   * itself, both ways.
   */
  predicate Teams(bidder: nat, partner: nat, level: int, thresholds: seq<Option<int>>, partnership: map<nat, nat>)
  {
    && |thresholds| == 4 && bidder < 4 && partner < 4 && bidder != partner
    && thresholds[bidder] == thresholds[partner] == Some(level + 6)
    && (forall s :: 0 <= s < 4 && s != bidder && s != partner ==> thresholds[s] == Some(8 - level))
    && (forall s :: 0 <= s < 4 ==> s in partnership && partnership[s] < 4)
    && (forall s :: 0 <= s < 4 ==> partnership[s] != s && partnership[partnership[s]] == s)
    && partnership[bidder] == partner
    && (forall s, t :: 0 <= s < 4 && 0 <= t < 4 && t != s && t != partnership[s] ==>
          thresholds[s].value + thresholds[t].value == 14)
  }

  lemma TeamsFormed(b: nat, p: nat, u: nat, v: nat, level: int,
                    th0: seq<Option<int>>, th: seq<Option<int>>, pm0: map<nat, nat>, pm: map<nat, nat>)
    requires |th0| == 4 && b < 4 && p < 4 && u < 4 && v < 4
    requires b != p && u != v && u != b && u != p && v != b && v != p
    requires th == th0[b := Some(level + 6)][p := Some(level + 6)][u := Some(8 - level)][v := Some(8 - level)]
    requires pm == pm0[b := p][p := b][u := v][v := u]
    ensures Teams(b, p, level, th, pm)
  {
    TeamsPaired(b, p, u, v, pm0, pm);
    TeamsThresholds(b, p, u, v, level, th0, th, pm);
  }

  /** The partnership pairs the bidder with the partner and the other two seats with each other. */
  lemma TeamsPaired(b: nat, p: nat, u: nat, v: nat, pm0: map<nat, nat>, pm: map<nat, nat>)
    requires b < 4 && p < 4 && u < 4 && v < 4
    requires b != p && u != v && u != b && u != p && v != b && v != p
    requires pm == pm0[b := p][p := b][u := v][v := u]
    ensures pm[b] == p
    ensures forall s :: 0 <= s < 4 ==> s in pm && pm[s] < 4 && pm[s] != s && pm[pm[s]] == s
  {
    assert pm[b] == p && pm[p] == b && pm[u] == v && pm[v] == u;
    forall s | 0 <= s < 4
      ensures s in pm && pm[s] < 4 && pm[s] != s && pm[pm[s]] == s
    {
      FourSeats(b, p, u, v, s);
    }
  }

  /** Thresholds of level+6 for one team and 8-level for the other: a seat's and an opponent's add to 14. */
  lemma TeamsThresholds(b: nat, p: nat, u: nat, v: nat, level: int,
                        th0: seq<Option<int>>, th: seq<Option<int>>, pm: map<nat, nat>)
    requires |th0| == 4 && b < 4 && p < 4 && u < 4 && v < 4
    requires b != p && u != v && u != b && u != p && v != b && v != p
    requires th == th0[b := Some(level + 6)][p := Some(level + 6)][u := Some(8 - level)][v := Some(8 - level)]
    requires b in pm && p in pm && u in pm && v in pm
    requires pm[b] == p && pm[p] == b && pm[u] == v && pm[v] == u
    ensures th[b] == th[p] == Some(level + 6) && th[u] == th[v] == Some(8 - level)
    ensures forall s :: 0 <= s < 4 && s != b && s != p ==> th[s] == Some(8 - level)
    ensures forall s, t :: 0 <= s < 4 && 0 <= t < 4 && t != s && s in pm && t != pm[s] ==>
      th[s].value + th[t].value == 14
  {
    forall s | 0 <= s < 4
      ensures th[s] == if s == b || s == p then Some(level + 6) else Some(8 - level)
    {
      FourSeats(b, p, u, v, s);
    }
    forall s, t | 0 <= s < 4 && 0 <= t < 4 && t != s && s in pm && t != pm[s]
      ensures th[s].value + th[t].value == 14
    {
      FourSeats(b, p, u, v, s);
      assert (s == b || s == p) <==> !(t == b || t == p) by {
        FourSeats(b, p, u, v, t);
      }
    }
  }

  /** Four distinct seats of a four-seat table are all of them. */
  lemma FourSeats(b: nat, p: nat, u: nat, v: nat, s: nat)
    requires b < 4 && p < 4 && u < 4 && v < 4 && s < 4
    requires b != p && u != v && u != b && u != p && v != b && v != p
    ensures s == b || s == p || s == u || s == v
  {
  }

  /** The other seats' cards, gathered seat by seat and sorted by suit and rank. */
  method SortedOthers(hands: seq<seq<Card>>, bidder: nat) returns (available: seq<Card>)
    requires forall p, c :: 0 <= p < |hands| && c in hands[p] ==> c.suit in SUITS && c.rank in RANKS
    ensures |available| == |Others(hands, bidder)|
    ensures SortedByKey(available) && multiset(available) == multiset(Others(hands, bidder))
  {
    var others := Others(hands, bidder);
    var cards := new Card[|others|](i requires 0 <= i < |others| => others[i]);
    assert cards[..] == others;
    forall k | 0 <= k < cards.Length
      ensures cards[k].suit in SUITS && cards[k].rank in RANKS
    {
      assert cards[k] in others;
      OthersMembers(hands, bidder, |hands|, cards[k]);
    }
    var sorted := SortDeck(cards);
    available := sorted[..];
    assert |multiset(available)| == |multiset(others)|;
  }

  /** The first seat whose hand holds the card. */
  method FindOwner(hands: seq<seq<Card>>, card: Card) returns (owner: nat)
    requires exists p :: 0 <= p < |hands| && card in hands[p]
    ensures owner < |hands| && card in hands[owner]
    ensures forall q :: 0 <= q < owner ==> card !in hands[q]
  {
    var found: Option<nat> := None;
    var p := 0;
    while p < |hands| && found.None?
      invariant p <= |hands|
      invariant found.None? ==> forall q :: 0 <= q < p ==> card !in hands[q]
      invariant found.Some? ==> found.value < |hands| && card in hands[found.value]
      invariant found.Some? ==> forall q :: 0 <= q < found.value ==> card !in hands[q]
    {
      if card in hands[p] {
        found := Some(p);
      }
      p := p + 1;
    }
    owner := found.value;
  }
}

=== FILE: bids.dfy ===
/**
 * Bids of the auction: their numeric value and the list of bids offered to
 * a player. Both bidding.py variants share this logic; they differ only in
 * field names.
 */
module Bids {
  import opened Cards

  /** A call: a pass, or a contract of a level and a strain. */
  datatype Bid = Pass | Contract(level: int, strain: string)

  /** The four suits followed by "No Trump", in the order bids are listed. */
  const STRAINS: seq<string> := SUITS + ["No Trump"]

  /** A contract whose strain has a score; any other contract raises. */
  predicate WellFormed(b: Bid)
  {
    b.Contract? ==> b.strain in STRAINS
  }

  predicate IsContract(b: Bid)
  {
    b.Contract? && b.strain in STRAINS
  }

  /** Clubs 1, Diamonds 2, Hearts 3, Spades 4, No Trump 5. */
  function StrainScore(strain: string): (score: int)
    requires strain in STRAINS
    ensures 1 <= score <= 5
    ensures STRAINS[score - 1] == strain
  {
    if strain == "Clubs" then 1
    else if strain == "Diamonds" then 2
    else if strain == "Hearts" then 3
    else if strain == "Spades" then 4
    else 5
  }

  /** The value of a bid: ten per level plus the strain's score. */
  function BidValue(level: int, strain: string): (value: int)
    requires strain in STRAINS
    ensures value / 10 == level && 1 <= value % 10 <= |STRAINS| && STRAINS[value % 10 - 1] == strain
  {
    level * 10 + StrainScore(strain)
  }

  /** The value of a contract, from which its level and strain can be read back. */
  function Value(b: Bid): (value: int)
    requires IsContract(b)
    ensures value / 10 == b.level && 1 <= value % 10 <= |STRAINS| && STRAINS[value % 10 - 1] == b.strain
  {
    BidValue(b.level, b.strain)
  }

  /** Strains score 1..5 in listing order, so a score names one strain. */
  lemma StrainScoreInjective(s: string, t: string)
    requires s in STRAINS && t in STRAINS
    ensures StrainScore(s) == StrainScore(t) <==> s == t
  {
  }

  /** Bids are ordered by level first and by strain within a level. */
  lemma BidValueOrder(l1: int, s1: string, l2: int, s2: string)
    requires s1 in STRAINS && s2 in STRAINS
    ensures BidValue(l1, s1) < BidValue(l2, s2) <==> l1 < l2 || (l1 == l2 && StrainScore(s1) < StrainScore(s2))
  {
  }

  /** Distinct bids have distinct values. */
  lemma BidValueInjective(l1: int, s1: string, l2: int, s2: string)
    requires s1 in STRAINS && s2 in STRAINS
    ensures BidValue(l1, s1) == BidValue(l2, s2) <==> l1 == l2 && s1 == s2
  {
    StrainScoreInjective(s1, s2);
  }

  /** The contracts of one level, in strain order, whose value beats `highest`. */
  function LevelBids(level: int, strains: seq<string>, highest: int): (bids: seq<Bid>)
    requires forall s :: s in strains ==> s in STRAINS
    ensures forall i :: 0 <= i < |bids| ==> bids[i].Contract?
  {
    if |strains| == 0 then []
    else
      var last := strains[|strains| - 1];
      LevelBids(level, strains[..|strains| - 1], highest)
        + (if BidValue(level, last) > highest then [Contract(level, last)] else [])
  }

  /** The contracts of levels lo .. hi-1 that beat `highest`, level by level. */
  function RangeBids(lo: int, hi: int, highest: int): (bids: seq<Bid>)
    ensures forall i :: 0 <= i < |bids| ==> bids[i].Contract?
    decreases hi - lo
  {
    if hi <= lo then [] else RangeBids(lo, hi - 1, highest) + LevelBids(hi - 1, STRAINS, highest)
  }

  function Max(a: int, b: int): int
  {
    if a < b then b else a
  }

  /**
   * The offered list: Pass while fewer than three players have passed, then
   * every contract from the current level up to 7 that beats the highest bid.
   * The current level is the last level bid divided by ten (at least 1).
   */
  function Offered(passCount: int, numericBid: int, highest: int): (bids: seq<Bid>)
    ensures forall i :: 0 < i < |bids| ==> bids[i].Contract?
  {
    (if passCount < 3 then [Pass] else []) + RangeBids(Max(numericBid / 10, 1), 8, highest)
  }

  /** Contract values never decrease along the list: they strictly increase. */
  predicate Increasing(bids: seq<Bid>)
  {
    forall i, j :: 0 <= i < j < |bids| && IsContract(bids[i]) && IsContract(bids[j]) ==> Value(bids[i]) < Value(bids[j])
  }

  lemma {:induction false} LevelBidsMembers(level: int, strains: seq<string>, highest: int, b: Bid)
    requires forall s :: s in strains ==> s in STRAINS
    ensures b in LevelBids(level, strains, highest) <==>
      b.Contract? && b.level == level && b.strain in strains && BidValue(level, b.strain) > highest
    decreases |strains|
  {
    if |strains| > 0 {
      var init := strains[..|strains| - 1];
      LevelBidsMembers(level, init, highest, b);
      assert strains == init + [strains[|strains| - 1]];
    }
  }

  lemma {:induction false} RangeBidsMembers(lo: int, hi: int, highest: int, b: Bid)
    ensures b in RangeBids(lo, hi, highest) <==>
      b.Contract? && lo <= b.level < hi && b.strain in STRAINS && BidValue(b.level, b.strain) > highest
    decreases hi - lo
  {
    if hi > lo {
      RangeBidsMembers(lo, hi - 1, highest, b);
      LevelBidsMembers(hi - 1, STRAINS, highest, b);
    }
  }

  /** Pass is offered exactly while fewer than three players have passed, and then first. */
  lemma PassOffered(passCount: int, numericBid: int, highest: int)
    ensures Pass in Offered(passCount, numericBid, highest) <==> passCount < 3
    ensures passCount < 3 ==> Offered(passCount, numericBid, highest)[0] == Pass
  {
    RangeBidsMembers(Max(numericBid / 10, 1), 8, highest, Pass);
  }

  /**
   * A contract is offered exactly when its level lies between the current
   * level and 7 and its value beats the highest bid. As the level bid is at
   * most 7, the current level is always 1.
   */
  lemma ContractOffered(passCount: int, numericBid: int, highest: int, level: int, strain: string)
    ensures Contract(level, strain) in Offered(passCount, numericBid, highest) <==>
      Max(numericBid / 10, 1) <= level <= 7 && strain in STRAINS && BidValue(level, strain) > highest
    ensures 0 <= numericBid <= 7 ==> Max(numericBid / 10, 1) == 1
  {
    RangeBidsMembers(Max(numericBid / 10, 1), 8, highest, Contract(level, strain));
  }

  /** Every offered bid is a pass or a well-formed contract of level 1..7 above the highest bid. */
  lemma OfferedWellFormed(passCount: int, numericBid: int, highest: int, b: Bid)
    requires b in Offered(passCount, numericBid, highest)
    ensures b.Pass? || (IsContract(b) && 1 <= b.level <= 7 && Value(b) > highest)
  {
    RangeBidsMembers(Max(numericBid / 10, 1), 8, highest, b);
  }

  lemma IncreasingAppend(a: seq<Bid>, b: seq<Bid>)
    requires Increasing(a) && Increasing(b)
    requires forall i, j :: 0 <= i < |a| && 0 <= j < |b| && IsContract(a[i]) && IsContract(b[j]) ==> Value(a[i]) < Value(b[j])
    ensures Increasing(a + b)
  {
    forall i, j | 0 <= i < j < |a + b| && IsContract((a + b)[i]) && IsContract((a + b)[j])
      ensures Value((a + b)[i]) < Value((a + b)[j])
    {
      if j < |a| {
      } else if i >= |a| {
        assert (a + b)[i] == b[i - |a|] && (a + b)[j] == b[j - |a|];
      } else {
        assert (a + b)[j] == b[j - |a|];
      }
    }
  }

  /** Within a level, offered strains come in score order, below the score bound |strains|+1. */
  lemma {:induction false} LevelBidsIncreasing(level: int, k: nat, highest: int)
    requires k <= |STRAINS|
    ensures Increasing(LevelBids(level, STRAINS[..k], highest))
    ensures forall b :: b in LevelBids(level, STRAINS[..k], highest) ==> IsContract(b) && b.level == level && StrainScore(b.strain) <= k
  {
    if k > 0 {
      var init := STRAINS[..k][..k - 1];
      assert init == STRAINS[..k - 1];
      LevelBidsIncreasing(level, k - 1, highest);
      var last := STRAINS[k - 1];
      assert StrainScore(last) == k;
      var tail: seq<Bid> := if BidValue(level, last) > highest then [Contract(level, last)] else [];
      assert LevelBids(level, STRAINS[..k], highest) == LevelBids(level, init, highest) + tail;
      IncreasingAppend(LevelBids(level, init, highest), tail);
    }
  }

  lemma {:induction false} RangeBidsIncreasing(lo: int, hi: int, highest: int)
    ensures Increasing(RangeBids(lo, hi, highest))
    ensures forall b :: b in RangeBids(lo, hi, highest) ==> IsContract(b) && b.level < hi
    decreases hi - lo
  {
    if hi > lo {
      RangeBidsIncreasing(lo, hi - 1, highest);
      LevelBidsFull(hi - 1, highest);
      var a := RangeBids(lo, hi - 1, highest);
      var b := LevelBids(hi - 1, STRAINS, highest);
      forall i, j | 0 <= i < |a| && 0 <= j < |b| && IsContract(a[i]) && IsContract(b[j])
        ensures Value(a[i]) < Value(b[j])
      {
        assert a[i] in a && b[j] in b;
        assert a[i].level < b[j].level;
      }
      IncreasingAppend(a, b);
      forall x | x in a + b ensures IsContract(x) && x.level < hi {
        assert x in a || x in b;
      }
    }
  }

  /** One whole level: increasing, and all of that level. */
  lemma LevelBidsFull(level: int, highest: int)
    ensures Increasing(LevelBids(level, STRAINS, highest))
    ensures forall b :: b in LevelBids(level, STRAINS, highest) ==> IsContract(b) && b.level == level
  {
    assert STRAINS[..|STRAINS|] == STRAINS;
    LevelBidsIncreasing(level, |STRAINS|, highest);
  }


  /** The offered contracts come in strictly increasing value order. */
  lemma OfferedIncreasing(passCount: int, numericBid: int, highest: int)
    ensures Increasing(Offered(passCount, numericBid, highest))
  {
    var r := RangeBids(Max(numericBid / 10, 1), 8, highest);
    RangeBidsIncreasing(Max(numericBid / 10, 1), 8, highest);
    var p: seq<Bid> := if passCount < 3 then [Pass] else [];
    IncreasingAppend(p, r);
  }
}

=== FILE: cards.dfy ===
/**
 * Playing cards and the construction of a fresh deck.
 * A card is a value: its rank and suit strings (the storage id that one
 * variant carries plays no part in the game).
 */
module Cards {

  datatype Card = Card(rank: string, suit: string)

  /** One entry of a set: the seat that played and the card it played. */
  datatype Play = Play(seat: nat, card: Card)

  /** A set (trick): the plays in the order they were made. */
  type Trick = seq<Play>

  /** Suit and rank names of the bridgeBot and game/core.py decks. */
  const SUITS: seq<string> := ["Clubs", "Diamonds", "Hearts", "Spades"]
  const RANKS: seq<string> := ["2", "3", "4", "5", "6", "7", "8", "9", "10",
                               "Jack", "Queen", "King", "Ace"]

  /** Suit symbols and rank letters of the game/deck.py deck. */
  const SYMBOL_SUITS: seq<string> := ["♠", "♥", "♦", "♣"]
  const LETTER_RANKS: seq<string> := ["2", "3", "4", "5", "6", "7", "8", "9", "10",
                                      "J", "Q", "K", "A"]

  predicate Distinct<T(==)>(s: seq<T>)
  {
    forall i, j :: 0 <= i < j < |s| ==> s[i] != s[j]
  }

  /** One card of the given suit per rank, in rank order. */
  function SuitRow(suit: string, ranks: seq<string>): (row: seq<Card>)
    ensures |row| == |ranks|
    ensures forall j :: 0 <= j < |ranks| ==> row[j] == Card(ranks[j], suit)
  {
    seq(|ranks|, j requires 0 <= j < |ranks| => Card(ranks[j], suit))
  }

  /** `[Card(rank, suit) for suit in suits for rank in ranks]`. */
  function NewDeck(suits: seq<string>, ranks: seq<string>): (deck: seq<Card>)
    ensures |deck| == |suits| * |ranks|
  {
    if |suits| == 0 then []
    else
      assert |suits| * |ranks| == |ranks| + (|suits| - 1) * |ranks|;
      SuitRow(suits[0], ranks) + NewDeck(suits[1..], ranks)
  }

  /** Suit-major order: the j-th rank of the i-th suit sits at i*|ranks| + j. */
  lemma {:induction false} NewDeckAt(suits: seq<string>, ranks: seq<string>, i: nat, j: nat)
    requires i < |suits| && j < |ranks|
    ensures |NewDeck(suits, ranks)| == |suits| * |ranks|
    ensures i * |ranks| + j < |suits| * |ranks|
    ensures NewDeck(suits, ranks)[i * |ranks| + j] == Card(ranks[j], suits[i])
  {
    if i > 0 {
      NewDeckAt(suits[1..], ranks, i - 1, j);
      assert i * |ranks| + j == |ranks| + ((i - 1) * |ranks| + j);
    }
  }

  /** Every (rank, suit) pair is in the deck, and nothing else is. */
  lemma {:induction false} NewDeckMembers(suits: seq<string>, ranks: seq<string>, c: Card)
    ensures c in NewDeck(suits, ranks) <==> c.rank in ranks && c.suit in suits
  {
    if |suits| > 0 {
      NewDeckMembers(suits[1..], ranks, c);
      var row := SuitRow(suits[0], ranks);
      assert c in row <==> c.rank in ranks && c.suit == suits[0] by {
        if c.rank in ranks && c.suit == suits[0] {
          var j :| 0 <= j < |ranks| && ranks[j] == c.rank;
          assert row[j] == c;
        }
      }
      assert suits == [suits[0]] + suits[1..];
    }
  }

  /** With distinct names, each pair occurs exactly once. */
  lemma {:induction false} NewDeckDistinct(suits: seq<string>, ranks: seq<string>)
    requires Distinct(suits) && Distinct(ranks)
    ensures Distinct(NewDeck(suits, ranks))
  {
    if |suits| > 0 {
      var row := SuitRow(suits[0], ranks);
      var rest := NewDeck(suits[1..], ranks);
      NewDeckDistinct(suits[1..], ranks);
      forall c | c in rest ensures c.suit != suits[0] {
        NewDeckMembers(suits[1..], ranks, c);
        var k :| 0 <= k < |suits[1..]| && suits[1..][k] == c.suit;
        assert suits[k + 1] == c.suit;
      }
      var d := row + rest;
      forall i, j | 0 <= i < j < |d| ensures d[i] != d[j] {
        if j < |row| {
          assert d[i] == Card(ranks[i], suits[0]) && d[j] == Card(ranks[j], suits[0]);
        } else if i >= |row| {
          assert d[i] == rest[i - |row|] && d[j] == rest[j - |row|];
        } else {
          assert d[j] in rest;
        }
      }
    }
  }

  /** The bridge deck: 52 distinct cards, one per (rank, suit) pair. */
  lemma BridgeDeck()
    ensures |NewDeck(SUITS, RANKS)| == 52
    ensures Distinct(NewDeck(SUITS, RANKS))
    ensures forall c :: c in NewDeck(SUITS, RANKS) <==> c.rank in RANKS && c.suit in SUITS
  {
    NewDeckDistinct(SUITS, RANKS);
    forall c ensures c in NewDeck(SUITS, RANKS) <==> c.rank in RANKS && c.suit in SUITS {
      NewDeckMembers(SUITS, RANKS, c);
    }
  }

  /** The symbol deck of game/deck.py, before its shuffle: likewise 52 distinct cards. */
  lemma SymbolDeck()
    ensures |NewDeck(SYMBOL_SUITS, LETTER_RANKS)| == 52
    ensures Distinct(NewDeck(SYMBOL_SUITS, LETTER_RANKS))
    ensures forall c :: c in NewDeck(SYMBOL_SUITS, LETTER_RANKS) <==>
                          c.rank in LETTER_RANKS && c.suit in SYMBOL_SUITS
  {
    NewDeckDistinct(SYMBOL_SUITS, LETTER_RANKS);
    forall c ensures c in NewDeck(SYMBOL_SUITS, LETTER_RANKS) <==>
                       c.rank in LETTER_RANKS && c.suit in SYMBOL_SUITS {
      NewDeckMembers(SYMBOL_SUITS, LETTER_RANKS, c);
    }
  }
}

=== FILE: deal.dfy ===
/**
 * Round-robin dealing: `[cards[i::n] for i in range(n)]`, the same
 * comprehension in bridgeBot/game/core.py, game/core.py and game/deck.py.
 * It reads the deck and leaves it as it was, so it is a function here.
 */
module Dealing {
  import opened Cards

  /** Python's extended slice `s[i::n]`: the elements at i, i+n, i+2n, ... */
  function Stride<T>(s: seq<T>, i: nat, n: nat): (r: seq<T>)
    requires n > 0
    ensures forall x :: x in r ==> x in s
    decreases |s| - i
  {
    if i >= |s| then [] else [s[i]] + Stride(s, i + n, n)
  }

  /** `deal(n)`: a non-positive count makes `range(n)` empty, so no hands. */
  function Deal<T>(cards: seq<T>, n: int): (hands: seq<seq<T>>)
    ensures |hands| == if n <= 0 then 0 else n
    ensures forall h, x :: h in hands && x in h ==> x in cards
  {
    if n <= 0 then [] else seq(n, i requires 0 <= i < n => Stride(cards, i, n))
  }

  /** Dropping the first n cards shifts every slice start by n. */
  lemma {:induction false} StrideShift<T>(s: seq<T>, i: nat, n: nat)
    requires 0 < n <= |s|
    ensures Stride(s, i + n, n) == Stride(s[n..], i, n)
    decreases |s| - i
  {
    if i + n < |s| { StrideShift(s, i + n, n); }
  }

  lemma DivModStep(x: int, n: int)
    requires n > 0 && x >= n
    ensures (x - n) / n == x / n - 1 && (x - n) % n == x % n
  {
    var q, r := (x - n) / n, (x - n) % n;
    assert x == (q + 1) * n + r;
    assert 0 <= r < n;
    DivUnique(x, n, q + 1, r);
  }

  lemma DivUnique(x: int, n: int, q: int, r: int)
    requires n > 0 && 0 <= r < n && x == q * n + r
    ensures x / n == q && x % n == r
  {
    var d, m := x / n, x % n;
    assert x == d * n + m;
    if d > q {
      assert (q + 1) * n == q * n + n;
      MulMono(q + 1, d, n);
    } else if d < q {
      assert (d + 1) * n == d * n + n;
      MulMono(d + 1, q, n);
    }
  }

  /** Hand i has |s|/n cards, one more while i is below the remainder. */
  lemma {:induction false} StrideLength<T>(s: seq<T>, i: nat, n: nat)
    requires i < n
    ensures |Stride(s, i, n)| == |s| / n + (if i < |s| % n then 1 else 0)
    decreases |s|
  {
    if |s| < n {
      DivUnique(|s|, n, 0, |s|);
      if i < |s| {
        assert Stride(s, i, n) == [s[i]] + Stride(s, i + n, n);
      }
    } else {
      DivModStep(|s|, n);
      StrideShift(s, i, n);
      StrideLength(s[n..], i, n);
      assert Stride(s, i, n) == [s[i]] + Stride(s[n..], i, n);
    }
  }

  /** `deal(n)` returns exactly n hands, hand i being `cards[i::n]`. */
  lemma DealHand<T>(cards: seq<T>, n: nat, i: nat)
    requires i < n
    ensures |Deal(cards, n)| == n && Deal(cards, n)[i] == Stride(cards, i, n)
  {
  }

  /** Hand sizes: q or q+1 where |cards| = q*n + r, the first r hands getting the extra card. */
  lemma DealSizes<T>(cards: seq<T>, n: nat)
    requires n > 0
    ensures forall i :: 0 <= i < n ==>
              |Deal(cards, n)[i]| == |cards| / n + (if i < |cards| % n then 1 else 0)
    ensures forall i, j :: 0 <= i < n && 0 <= j < n ==>
              |Deal(cards, n)[i]| - |Deal(cards, n)[j]| <= 1
  {
    forall i | 0 <= i < n
      ensures |Deal(cards, n)[i]| == |cards| / n + (if i < |cards| % n then 1 else 0)
    {
      DealHand(cards, n, i);
      StrideLength(cards, i, n);
    }
  }

  /** 52 cards over 4 hands: 13 each. */
  lemma DealFour<T>(cards: seq<T>)
    requires |cards| == 52
    ensures |Deal(cards, 4)| == 4
    ensures forall i :: 0 <= i < 4 ==> |Deal(cards, 4)[i]| == 13
  {
    DealSizes(cards, 4);
  }

  /** Deck position j goes to hand j % n, at place j / n. */
  lemma DealPlaces<T>(cards: seq<T>, n: nat, j: nat)
    requires n > 0 && j < |cards|
    ensures j / n < |Deal(cards, n)[j % n]|
    ensures Deal(cards, n)[j % n][j / n] == cards[j]
  {
    var i, k := j % n, j / n;
    DivModParts(j, n);
    DealHand(cards, n, i);
    StrideIndex(cards, i, n, k);
  }

  lemma DivModParts(j: int, n: int)
    requires n > 0
    ensures j == j % n + (j / n) * n && 0 <= j % n < n
  {
  }

  /** A deck position i + k*n is place k of the slice that starts at i. */
  lemma {:induction false} StrideIndex<T>(s: seq<T>, i: nat, n: nat, k: nat)
    requires n > 0 && i + k * n < |s|
    ensures k < |Stride(s, i, n)| && Stride(s, i, n)[k] == s[i + k * n]
    decreases k
  {
    if k == 0 {
      assert Stride(s, i, n)[0] == s[i];
    } else {
      assert i + k * n == (i + n) + (k - 1) * n;
      StrideIndex(s, i + n, n, k - 1);
      assert Stride(s, i, n) == [s[i]] + Stride(s, i + n, n);
    }
  }

  lemma MulMono(a: int, b: int, n: int)
    requires a <= b && n >= 0
    ensures a * n <= b * n
  {
    assert b * n - a * n == (b - a) * n;
  }

  lemma ModAfterStrides(i: nat, k: nat, n: nat)
    requires i < n
    ensures (i + k * n) % n == i
  {
    DivUnique(i + k * n, n, k, i);
  }

  /** A card found in hand i came from a deck position j with j % n == i. */
  lemma FoundInHand<T>(cards: seq<T>, n: nat, i: nat, c: T) returns (j: nat)
    requires i < n && c in Deal(cards, n)[i]
    ensures j < |cards| && cards[j] == c && j % n == i
  {
    DealHand(cards, n, i);
    var k := StrideFind(cards, i, n, c);
    j := i + k * n;
    ModAfterStrides(i, k, n);
  }

  /** A card of the slice starting at i sits at some position i + k*n of the deck. */
  lemma {:induction false} StrideFind<T>(s: seq<T>, i: nat, n: nat, c: T) returns (k: nat)
    requires n > 0 && c in Stride(s, i, n)
    ensures i + k * n < |s| && s[i + k * n] == c
    decreases |s| - i
  {
    assert i < |s|;
    assert Stride(s, i, n) == [s[i]] + Stride(s, i + n, n);
    if s[i] == c {
      k := 0;
    } else {
      var k' := StrideFind(s, i + n, n, c);
      k := k' + 1;
      assert i + k * n == (i + n) + k' * n;
    }
  }

  /**
   * Every card of a deck without duplicates lands in exactly one hand:
   * position j's card is in hand j % n and in no other.
   */
  lemma DealPartition<T>(cards: seq<T>, n: nat, j: nat)
    requires n > 0 && Distinct(cards) && j < |cards|
    ensures cards[j] in Deal(cards, n)[j % n]
    ensures forall i :: 0 <= i < n && cards[j] in Deal(cards, n)[i] ==> i == j % n
  {
    DealPlaces(cards, n, j);
    forall i | 0 <= i < n && cards[j] in Deal(cards, n)[i] ensures i == j % n {
      var j' := FoundInHand(cards, n, i, cards[j]);
      assert j' == j;
    }
  }

  /** The hands together hold the deck's cards, counted with multiplicity. */
  function Concat<T>(hands: seq<seq<T>>): seq<T>
  {
    if |hands| == 0 then [] else hands[0] + Concat(hands[1..])
  }

  lemma {:induction false} ConcatPrepend<T>(xs: seq<T>, rest: seq<seq<T>>, hands: seq<seq<T>>)
    requires |xs| == |rest| == |hands|
    requires forall i :: 0 <= i < |hands| ==> hands[i] == [xs[i]] + rest[i]
    ensures multiset(Concat(hands)) == multiset(xs) + multiset(Concat(rest))
  {
    if |hands| > 0 {
      ConcatPrepend(xs[1..], rest[1..], hands[1..]);
      assert xs == [xs[0]] + xs[1..];
    }
  }

  lemma {:induction false} ConcatShort<T>(s: seq<T>, hands: seq<seq<T>>)
    requires |s| <= |hands|
    requires forall i :: 0 <= i < |hands| ==> hands[i] == if i < |s| then [s[i]] else []
    ensures Concat(hands) == s
  {
    if |hands| > 0 {
      if |s| > 0 {
        ConcatShort(s[1..], hands[1..]);
        assert s == [s[0]] + s[1..];
      } else {
        ConcatShort(s, hands[1..]);
      }
    }
  }

  /** With fewer cards than hands, hand i holds just card i, or nothing. */
  lemma DealShort<T>(cards: seq<T>, n: nat, i: nat)
    requires |cards| < n && i < n
    ensures |Deal(cards, n)| == n
    ensures Deal(cards, n)[i] == if i < |cards| then [cards[i]] else []
  {
    DealHand(cards, n, i);
    if i < |cards| {
      assert Stride(cards, i, n) == [cards[i]] + Stride(cards, i + n, n);
    }
  }

  /** Hand i is card i followed by hand i of the deal of the cards after the first n. */
  lemma DealFirstRow<T>(cards: seq<T>, n: nat, i: nat)
    requires 0 < n <= |cards| && i < n
    ensures |Deal(cards, n)| == |Deal(cards[n..], n)| == n
    ensures Deal(cards, n)[i] == [cards[..n][i]] + Deal(cards[n..], n)[i]
  {
    DealHand(cards, n, i);
    DealHand(cards[n..], n, i);
    StrideShift(cards, i, n);
    assert Stride(cards, i, n) == [cards[i]] + Stride(cards, i + n, n);
  }

  lemma DealFirstRows<T>(cards: seq<T>, n: nat)
    requires 0 < n <= |cards|
    ensures |cards[..n]| == |Deal(cards[n..], n)| == |Deal(cards, n)| == n
    ensures forall i :: 0 <= i < n ==> Deal(cards, n)[i] == [cards[..n][i]] + Deal(cards[n..], n)[i]
  {
    forall i | 0 <= i < n ensures Deal(cards, n)[i] == [cards[..n][i]] + Deal(cards[n..], n)[i] {
      DealFirstRow(cards, n, i);
    }
  }

  lemma {:induction false} DealMultiset<T>(cards: seq<T>, n: nat)
    requires n > 0
    ensures multiset(Concat(Deal(cards, n))) == multiset(cards)
    decreases |cards|
  {
    var hands := Deal(cards, n);
    if |cards| < n {
      forall i | 0 <= i < n ensures hands[i] == if i < |cards| then [cards[i]] else [] {
        DealShort(cards, n, i);
      }
      ConcatShort(cards, hands);
    } else {
      var rest := Deal(cards[n..], n);
      DealFirstRows(cards, n);
      ConcatPrepend(cards[..n], rest, hands);
      DealMultiset(cards[n..], n);
      assert cards == cards[..n] + cards[n..];
      assert multiset(cards) == multiset(cards[..n]) + multiset(cards[n..]);
    }
  }
}

=== FILE: game.dfy ===
/**
 * The play phase: rounds of one card per seat, the set going to the seat
 * that resolve_set names as leader of the next round, until a team reaches
 * its threshold or the hands run out.
 */
module Game {
  import opened Wrappers
  import opened Cards
  import opened Tricks
  import Bidding

  class GamePhase {
    var hands: seq<seq<Card>>
    var setsWon: seq<seq<Trick>>
    var thresholds: seq<Option<int>>
    var partnership: map<nat, nat>
    var trumpSuit: string
    var trumpBidder: nat
    var sets: seq<Trick>
    var setWinner: Option<nat>

    /** One entry per seat, everybody has a partner seat, and seats are in range. */
    predicate Valid()
      reads this
    {
      && |hands| == |setsWon| == |thresholds| && |hands| > 0
      && trumpBidder < |hands|
      && (forall s :: 0 <= s < |hands| ==> s in partnership && partnership[s] < |hands|)
      && (setWinner.Some? ==> setWinner.value < |hands|)
    }

    /** The play phase takes over the seats, the contract and the partnership of the auction. */
    constructor (phase: Bidding.BiddingPhase)
      requires phase.Valid() && |phase.hands| > 0
      requires phase.trumpBidder.Some? && phase.trumpSuit.Some?
      requires forall s :: 0 <= s < |phase.hands| ==> s in phase.partnership && phase.partnership[s] < |phase.hands|
      ensures Valid()
      ensures hands == phase.hands && thresholds == phase.thresholds && partnership == phase.partnership
      ensures trumpSuit == phase.trumpSuit.value && trumpBidder == phase.trumpBidder.value
      ensures |setsWon| == |hands| && forall s :: 0 <= s < |hands| ==> setsWon[s] == []
      ensures sets == [] && setWinner == None
    {
      hands := phase.hands;
      setsWon := seq(|phase.hands|, _ => []);
      thresholds := phase.thresholds;
      partnership := phase.partnership;
      trumpSuit := phase.trumpSuit.value;
      trumpBidder := phase.trumpBidder.value;
      sets := [];
      setWinner := None;
    }

    /**
     * The game is over when some seat's sets plus its partner's reach that
     * seat's threshold exactly, or when every hand is empty.
     */
    predicate IsGameOver()
      requires Valid()
      reads this
    {
      Over(Snapshot(hands, setsWon), thresholds, partnership)
    }

    /**
     * A game that is not over, with hands of equal length, can play another
     * round: every seat still holds a card.
     */
    lemma NotOverPlayable()
      requires Valid() && !IsGameOver()
      requires forall s :: 0 <= s < |hands| ==> |hands[s]| == |hands[0]|
      ensures forall s :: 0 <= s < |hands| ==> |hands[s]| > 0
    {
      HandsLeft(hands);
    }

    /**
     * Under the teams select_partner forms, with at most 13 sets won in all,
     * a game that ends while cards remain was ended by one whole team: a seat
     * and its partner have both reached their threshold, and no opponent has.
     */
    lemma OverByOneTeam(b: nat, p: nat, level: int)
      requires Valid() && |hands| == 4 && Bidding.Teams(b, p, level, thresholds, partnership)
      requires |setsWon[0]| + |setsWon[1]| + |setsWon[2]| + |setsWon[3]| <= 13
      requires IsGameOver() && exists s :: 0 <= s < 4 && |hands[s]| > 0
      ensures exists s :: 0 <= s < 4
                && Reached(thresholds, partnership, Counts(setsWon), s)
                && Reached(thresholds, partnership, Counts(setsWon), partnership[s])
                && forall t :: 0 <= t < 4 && t != s && t != partnership[s] ==>
                     !Reached(thresholds, partnership, Counts(setsWon), t)
    {
      var s := OverWithCards(Snapshot(hands, setsWon), thresholds, partnership);
      var won := Counts(setsWon);
      CountsReached(thresholds, partnership, setsWon, s);
      TeamEnds(b, p, level, thresholds, partnership, won, s);
    }

    /** The seat picks one of its legal cards, which leaves its hand. */
    method PlayCard(seat: nat, trick: Trick, pick: (nat, seq<Card>) -> nat) returns (card: Card)
      requires Valid() && seat < |hands| && |hands[seat]| > 0
      requires forall s, legal :: |legal| > 0 ==> pick(s, legal) < |legal|
      modifies this
      ensures Valid()
      ensures card in Legal(old(hands[seat]), trick) && card in old(hands[seat])
      ensures hands == old(hands)[seat := RemoveFirst(old(hands[seat]), card)]
      ensures setsWon == old(setsWon) && thresholds == old(thresholds) && partnership == old(partnership)
      ensures trumpSuit == old(trumpSuit) && trumpBidder == old(trumpBidder)
      ensures sets == old(sets) && setWinner == old(setWinner)
    {
      var legal := Legal(hands[seat], trick);
      LegalInHand(hands[seat], trick);
      card := legal[pick(seat, legal)];
      hands := hands[seat := RemoveFirst(hands[seat], card)];
    }

    /**
     * A round: each seat plays once, in seat order from the leader. The set
     * is recorded, its winner noted, and the set is added to the sets won by
     * the last seat to play.
     */
    method PlayRound(leader: nat, pick: (nat, seq<Card>) -> nat)
      requires Valid() && leader < |hands|
      requires forall s :: 0 <= s < |hands| ==> |hands[s]| > 0
      requires forall s, legal :: |legal| > 0 ==> pick(s, legal) < |legal|
      modifies this
      ensures Valid()
      ensures |hands| == |old(hands)|
      ensures |sets| == |old(sets)| + 1 && sets[..|old(sets)|] == old(sets)
      ensures Round(sets[|old(sets)|], leader, old(hands), hands)
      ensures |sets[|old(sets)|]| == |hands| && sets[|old(sets)|][0].seat == leader
      ensures setWinner == Winner(sets[|old(sets)|], trumpSuit) && setWinner.Some?
      ensures var last := Rotate(leader, |hands| - 1, |hands|);
        setsWon == old(setsWon)[last := old(setsWon)[last] + [sets[|old(sets)|]]]
      ensures forall s :: 0 <= s < |hands| ==> |hands[s]| == |old(hands)[s]| - 1
      ensures thresholds == old(thresholds) && partnership == old(partnership)
      ensures trumpSuit == old(trumpSuit) && trumpBidder == old(trumpBidder)
    {
      var trick, current := PlayPlays(leader, pick);
      RoundDone(trick, leader, old(hands), hands);
      var winner := ResolveSet(trick, trumpSuit);
      WinnerPlayed(trick, trumpSuit);
      var i :| 0 <= i < |trick| && trick[i].seat == winner.value;
      assert winner.value < |hands|;
      RecordSet(trick, current, winner);
      assert sets[|old(sets)|] == trick;
    }

    /** The bookkeeping at the end of a round: the set, its winner, and the sets won by `last`. */
    method RecordSet(trick: Trick, last: nat, winner: Option<nat>)
      requires Valid() && last < |hands| && (winner.Some? ==> winner.value < |hands|)
      modifies this
      ensures Valid()
      ensures sets == old(sets) + [trick] && setWinner == winner
      ensures setsWon == old(setsWon)[last := old(setsWon)[last] + [trick]]
      ensures hands == old(hands) && thresholds == old(thresholds) && partnership == old(partnership)
      ensures trumpSuit == old(trumpSuit) && trumpBidder == old(trumpBidder)
    {
      sets := sets + [trick];
      setWinner := winner;
      setsWon := setsWon[last := setsWon[last] + [trick]];
    }

    /**
     * One turn of play_game's loop: a round from a state that is not over,
     * then the index of its winner. The round extends the game's history and
     * its order of leaders.
     */
    method NextLeader(leader: nat, pick: (nat, seq<Card>) -> nat, ghost played: seq<Trick>, ghost leaders: seq<nat>,
                      ghost history: seq<Snapshot>)
      returns (next: nat, ghost trick: Trick, ghost history2: seq<Snapshot>)
      requires Valid() && leader < |hands| && !IsGameOver()
      requires forall s :: 0 <= s < |hands| ==> |hands[s]| == |hands[0]| > 0
      requires forall s, legal :: |legal| > 0 ==> pick(s, legal) < |legal|
      requires Played(history, played, leaders, trumpSuit, thresholds, partnership)
      requires history[|leaders|] == Snapshot(hands, setsWon)
      requires |leaders| > 0 ==> Winner(played[|played| - 1], trumpSuit) == Some(leader)
      modifies this
      ensures Valid() && |hands| == |old(hands)| && next < |hands|
      ensures forall s :: 0 <= s < |hands| ==> |hands[s]| == |hands[0]| == |old(hands[0])| - 1
      ensures sets == old(sets) + [trick] && Winner(trick, trumpSuit) == Some(next)
      ensures history2 == history + [Snapshot(hands, setsWon)]
      ensures Played(history2, played + [trick], leaders + [leader], trumpSuit, thresholds, partnership)
      ensures thresholds == old(thresholds) && partnership == old(partnership)
      ensures trumpSuit == old(trumpSuit) && trumpBidder == old(trumpBidder)
    {
      ghost var before := sets;
      PlayRound(leader, pick);
      next := setWinner.value;
      trick := sets[|before|];
      history2 := history + [Snapshot(hands, setsWon)];
      PlayedStep(history, played, leaders, trumpSuit, thresholds, partnership, Snapshot(hands, setsWon), trick, leader);
      assert sets == before + [trick];
    }

    /** The plays of a round, one per seat from the leader; returns the set and the last seat to play. */
    method PlayPlays(leader: nat, pick: (nat, seq<Card>) -> nat) returns (trick: Trick, current: nat)
      requires Valid() && leader < |hands|
      requires forall s :: 0 <= s < |hands| ==> |hands[s]| > 0
      requires forall s, legal :: |legal| > 0 ==> pick(s, legal) < |legal|
      modifies this
      ensures Valid()
      ensures Round(trick, leader, old(hands), hands)
      ensures current == Rotate(leader, |hands| - 1, |hands|) && current == trick[|trick| - 1].seat
      ensures setsWon == old(setsWon) && thresholds == old(thresholds) && partnership == old(partnership)
      ensures trumpSuit == old(trumpSuit) && trumpBidder == old(trumpBidder)
      ensures sets == old(sets) && setWinner == old(setWinner)
    {
      var n := |hands|;
      trick := [];
      current := leader;
      var offset := 0;
      while offset < n
        invariant Valid() && |hands| == n && offset <= n && |trick| == offset
        invariant RoundSoFar(trick, leader, old(hands), hands)
        invariant forall o :: offset <= o < n ==> hands[Rotate(leader, o, n)] == old(hands)[Rotate(leader, o, n)]
        invariant offset > 0 ==> current == Rotate(leader, offset - 1, n) == trick[offset - 1].seat
        invariant setsWon == old(setsWon) && thresholds == old(thresholds) && partnership == old(partnership)
        invariant trumpSuit == old(trumpSuit) && trumpBidder == old(trumpBidder)
        invariant sets == old(sets) && setWinner == old(setWinner)
      {
        current := (leader + offset) % n;
        assert current == Rotate(leader, offset, n);
        ghost var before := hands;
        var card := PlayCard(current, trick, pick);
        RoundStep(trick, leader, old(hands), before, hands, card);
        trick := trick + [Play(current, card)];
        offset := offset + 1;
      }
    }

    /**
     * Rounds until the game is over. The first set is led by the opening
     * leader, each later one by the winner of the set before it. `history`
     * holds the hands and sets won before each round and at the end: each
     * round takes one snapshot to the next, the game was not over before any
     * round, and it is over at the end, so play stops at the first over state.
     */
    method PlayGame(pick: (nat, seq<Card>) -> nat) returns (ghost leaders: seq<nat>, ghost history: seq<Snapshot>)
      requires Valid()
      requires forall s :: 0 <= s < |hands| ==> |hands[s]| == |hands[0]|
      requires forall s, legal :: |legal| > 0 ==> pick(s, legal) < |legal|
      modifies this
      ensures Valid() && IsGameOver()
      ensures |history| == |leaders| + 1
      ensures history[0] == Snapshot(old(hands), old(setsWon)) && history[|leaders|] == Snapshot(hands, setsWon)
      ensures |sets| == |old(sets)| + |leaders| && sets[..|old(sets)|] == old(sets)
      ensures Played(history, sets[|old(sets)|..], leaders, trumpSuit, thresholds, partnership)
      ensures |leaders| > 0 ==> leaders[0] == OpeningLeader(trumpSuit, trumpBidder, |hands|)
      ensures thresholds == old(thresholds) && partnership == old(partnership)
      ensures trumpSuit == old(trumpSuit) && trumpBidder == old(trumpBidder)
    {
      var leader;
      if trumpSuit in SUITS {
        leader := (trumpBidder + 2) % |hands|;
      } else {
        leader := trumpBidder;
      }
      leaders, history := PlayFrom(leader, pick);
    }

    /**
     * The loop of play_game: rounds from the given opening leader until the
     * game is over. Every round takes a card from each hand, so it ends.
     */
    method PlayFrom(leader: nat, pick: (nat, seq<Card>) -> nat) returns (ghost leaders: seq<nat>, ghost history: seq<Snapshot>)
      requires Valid() && leader < |hands|
      requires forall s :: 0 <= s < |hands| ==> |hands[s]| == |hands[0]|
      requires forall s, legal :: |legal| > 0 ==> pick(s, legal) < |legal|
      modifies this
      ensures Valid() && IsGameOver()
      ensures |history| == |leaders| + 1
      ensures history[0] == Snapshot(old(hands), old(setsWon)) && history[|leaders|] == Snapshot(hands, setsWon)
      ensures |sets| == |old(sets)| + |leaders| && sets[..|old(sets)|] == old(sets)
      ensures Played(history, sets[|old(sets)|..], leaders, trumpSuit, thresholds, partnership)
      ensures |leaders| > 0 ==> leaders[0] == leader
      ensures thresholds == old(thresholds) && partnership == old(partnership)
      ensures trumpSuit == old(trumpSuit) && trumpBidder == old(trumpBidder)
    {
      var n := |hands|;
      var current := leader;
      ghost var played: seq<Trick> := [];
      leaders := [];
      history := [Snapshot(hands, setsWon)];
      while !IsGameOver()
        invariant Valid() && |hands| == n && current < n
        invariant |history| == |leaders| + 1
        invariant history[0] == Snapshot(old(hands), old(setsWon)) && history[|leaders|] == Snapshot(hands, setsWon)
        invariant forall s :: 0 <= s < n ==> |hands[s]| == |hands[0]|
        invariant sets == old(sets) + played
        invariant Played(history, played, leaders, trumpSuit, thresholds, partnership)
        invariant (leaders + [current])[0] == leader
        invariant |leaders| > 0 ==> Winner(played[|played| - 1], trumpSuit) == Some(current)
        invariant thresholds == old(thresholds) && partnership == old(partnership)
        invariant trumpSuit == old(trumpSuit) && trumpBidder == old(trumpBidder)
        decreases |hands[0]|
      {
        HandsLeft(hands);
        var next;
        ghost var trick;
        next, trick, history := NextLeader(current, pick, played, leaders, history);
        assert old(sets) + played + [trick] == old(sets) + (played + [trick]);
        played := played + [trick];
        leaders := leaders + [current];
        current := next;
      }
      assert sets[|old(sets)|..] == played;
    }
  }

  /** The state `is_game_over` inspects between rounds: every hand and every seat's sets won. */
  datatype Snapshot = Snapshot(hands: seq<seq<Card>>, setsWon: seq<seq<Trick>>)

  /** One entry per seat in the snapshot, and every seat has a partner seat. */
  predicate Fits(snap: Snapshot, thresholds: seq<Option<int>>, partnership: map<nat, nat>)
  {
    && |snap.hands| == |snap.setsWon| == |thresholds| > 0
    && forall s :: 0 <= s < |snap.hands| ==> s in partnership && partnership[s] < |snap.hands|
  }

  /**
   * `is_game_over`: some seat's sets plus its partner's equal that seat's
   * threshold exactly, or every hand is empty.
   */
  predicate Over(snap: Snapshot, thresholds: seq<Option<int>>, partnership: map<nat, nat>)
    requires Fits(snap, thresholds, partnership)
  {
    || (exists s :: 0 <= s < |snap.hands| && thresholds[s] == Some(|snap.setsWon[s]| + |snap.setsWon[partnership[s]]|))
    || (forall s :: 0 <= s < |snap.hands| ==> |snap.hands[s]| == 0)
  }

  /**
   * One round of `play_game`'s loop takes snapshot a to b: the set is a whole
   * round led by `leader`, and it is added to the sets won by the last seat
   * to play.
   */
  ghost predicate Step(a: Snapshot, b: Snapshot, trick: Trick, leader: nat)
  {
    && |a.setsWon| == |a.hands| && leader < |a.hands|
    && Round(trick, leader, a.hands, b.hands)
    && var last := Rotate(leader, |a.hands| - 1, |a.hands|);
       b.setsWon == a.setsWon[last := a.setsWon[last] + [trick]]
  }

  /** Round r of a history is a step. */
  ghost predicate StepAt(history: seq<Snapshot>, played: seq<Trick>, leaders: seq<nat>, r: nat)
  {
    r + 1 < |history| && r < |played| && r < |leaders| && Step(history[r], history[r + 1], played[r], leaders[r])
  }

  /**
   * The history of a game: round r, led by leaders[r], plays played[r] and
   * takes history[r] to history[r + 1]; the game was not over before it,
   * and the winner of each set leads the next.
   */
  ghost predicate Played(history: seq<Snapshot>, played: seq<Trick>, leaders: seq<nat>, trump: string,
                         thresholds: seq<Option<int>>, partnership: map<nat, nat>)
  {
    && |history| == |leaders| + 1 && |played| == |leaders|
    && (forall r :: 0 <= r < |leaders| ==> Fits(history[r], thresholds, partnership) && !Over(history[r], thresholds, partnership))
    && (forall r :: 0 <= r < |leaders| ==> StepAt(history, played, leaders, r))
    && (forall r {:trigger played[r]} :: 0 <= r && r + 1 < |leaders| ==> Winner(played[r], trump) == Some(leaders[r + 1]))
  }

  /**
   * A round played from a state that is not over, led by the winner of the
   * last set, extends the history.
   */
  lemma PlayedStep(history: seq<Snapshot>, played: seq<Trick>, leaders: seq<nat>, trump: string,
                   thresholds: seq<Option<int>>, partnership: map<nat, nat>, b: Snapshot, t: Trick, leader: nat)
    requires Played(history, played, leaders, trump, thresholds, partnership)
    requires Fits(history[|leaders|], thresholds, partnership) && !Over(history[|leaders|], thresholds, partnership)
    requires Step(history[|leaders|], b, t, leader)
    requires |leaders| > 0 ==> Winner(played[|played| - 1], trump) == Some(leader)
    ensures Played(history + [b], played + [t], leaders + [leader], trump, thresholds, partnership)
  {
    NotOverExtend(history, b, |leaders|, thresholds, partnership);
    StepsExtend(history, played, leaders, b, t, leader);
    WinnersExtend(played, leaders, trump, t, leader);
  }

  /** PlayedStep, first clause: no snapshot before the new one is over. */
  lemma NotOverExtend(history: seq<Snapshot>, b: Snapshot, n: nat, thresholds: seq<Option<int>>, partnership: map<nat, nat>)
    requires |history| == n + 1
    requires forall r :: 0 <= r < n ==> Fits(history[r], thresholds, partnership) && !Over(history[r], thresholds, partnership)
    requires Fits(history[n], thresholds, partnership) && !Over(history[n], thresholds, partnership)
    ensures forall r :: 0 <= r < n + 1 ==>
      Fits((history + [b])[r], thresholds, partnership) && !Over((history + [b])[r], thresholds, partnership)
  {
    forall r | 0 <= r < n + 1
      ensures Fits((history + [b])[r], thresholds, partnership) && !Over((history + [b])[r], thresholds, partnership)
    {
      assert (history + [b])[r] == history[r];
    }
  }

  /** PlayedStep, second clause: every round, the new one included, is a step. */
  lemma StepsExtend(history: seq<Snapshot>, played: seq<Trick>, leaders: seq<nat>, b: Snapshot, t: Trick, leader: nat)
    requires |history| == |leaders| + 1 && |played| == |leaders|
    requires forall r :: 0 <= r < |leaders| ==> StepAt(history, played, leaders, r)
    requires Step(history[|leaders|], b, t, leader)
    ensures forall r :: 0 <= r < |leaders| + 1 ==> StepAt(history + [b], played + [t], leaders + [leader], r)
  {
    var h2, s2, l2 := history + [b], played + [t], leaders + [leader];
    forall r | 0 <= r < |l2|
      ensures StepAt(h2, s2, l2, r)
    {
      if r < |leaders| {
        assert StepAt(history, played, leaders, r);
        assert h2[r] == history[r] && h2[r + 1] == history[r + 1] && s2[r] == played[r] && l2[r] == leaders[r];
      } else {
        assert h2[r] == history[r] && h2[r + 1] == b && s2[r] == t && l2[r] == leader;
      }
    }
  }

  /** PlayedStep, third clause: the winner of each set leads the next. */
  lemma WinnersExtend(played: seq<Trick>, leaders: seq<nat>, trump: string, t: Trick, leader: nat)
    requires |played| == |leaders|
    requires forall r {:trigger played[r]} :: 0 <= r && r + 1 < |leaders| ==> Winner(played[r], trump) == Some(leaders[r + 1])
    requires |leaders| > 0 ==> Winner(played[|played| - 1], trump) == Some(leader)
    ensures forall r {:trigger (played + [t])[r]} :: 0 <= r && r + 1 < |leaders| + 1 ==>
      Winner((played + [t])[r], trump) == Some((leaders + [leader])[r + 1])
  {
    forall r | 0 <= r && r + 1 < |leaders| + 1
      ensures Winner((played + [t])[r], trump) == Some((leaders + [leader])[r + 1])
    {
      assert (played + [t])[r] == played[r];
      if r + 1 < |leaders| {
        assert (leaders + [leader])[r + 1] == leaders[r + 1];
      }
    }
  }

  /** Hands of equal length, not all empty, are all non-empty. */
  lemma HandsLeft(hands: seq<seq<Card>>)
    requires |hands| > 0 && forall s :: 0 <= s < |hands| ==> |hands[s]| == |hands[0]|
    requires !(forall s :: 0 <= s < |hands| ==> |hands[s]| == 0)
    ensures forall s :: 0 <= s < |hands| ==> |hands[s]| > 0
  {
  }

  /** The plays so far of a round led by `leader`: seat order and legal, removed cards. */
  ghost predicate RoundSoFar(trick: Trick, leader: nat, before: seq<seq<Card>>, after: seq<seq<Card>>)
  {
    && leader < |before| && |trick| <= |before| && |after| == |before|
    && forall o :: 0 <= o < |trick| ==>
      var seat := Rotate(leader, o, |before|);
      && trick[o].seat == seat
      && trick[o].card in before[seat]
      && trick[o].card in Legal(before[seat], trick[..o])
      && after[seat] == RemoveFirst(before[seat], trick[o].card)
  }

  /** A whole round: every seat played once, in order from the leader, a legal card of its hand. */
  ghost predicate Round(trick: Trick, leader: nat, before: seq<seq<Card>>, after: seq<seq<Card>>)
  {
    |trick| == |before| && RoundSoFar(trick, leader, before, after)
  }

  /** One more play keeps the round well formed, and leaves the later seats' hands alone. */
  lemma RoundStep(trick: Trick, leader: nat, start: seq<seq<Card>>, before: seq<seq<Card>>,
                  after: seq<seq<Card>>, card: Card)
    requires RoundSoFar(trick, leader, start, before) && |trick| < |start|
    requires forall o :: |trick| <= o < |start| ==> before[Rotate(leader, o, |start|)] == start[Rotate(leader, o, |start|)]
    requires var seat := Rotate(leader, |trick|, |start|);
      && card in before[seat] && card in Legal(before[seat], trick)
      && after == before[seat := RemoveFirst(before[seat], card)]
    ensures RoundSoFar(trick + [Play(Rotate(leader, |trick|, |start|), card)], leader, start, after)
    ensures forall o :: |trick| + 1 <= o < |start| ==> after[Rotate(leader, o, |start|)] == start[Rotate(leader, o, |start|)]
  {
    var n := |start|;
    var seat := Rotate(leader, |trick|, n);
    var t := trick + [Play(seat, card)];
    forall o | 0 <= o < |t|
      ensures var s := Rotate(leader, o, n);
        && t[o].seat == s && t[o].card in start[s] && t[o].card in Legal(start[s], t[..o])
        && after[s] == RemoveFirst(start[s], t[o].card)
    {
      RotationOnce(leader, n, o, |trick|);
      if o < |trick| {
        assert t[..o] == trick[..o];
      } else {
        assert t[..o] == trick;
      }
    }
    forall o | |trick| + 1 <= o < n
      ensures after[Rotate(leader, o, n)] == start[Rotate(leader, o, n)]
    {
      RotationOnce(leader, n, o, |trick|);
    }
  }

  /** After a whole round every hand is one card shorter, and the last to play sits just before the leader. */
  lemma RoundDone(trick: Trick, leader: nat, start: seq<seq<Card>>, after: seq<seq<Card>>)
    requires Round(trick, leader, start, after)
    ensures forall s :: 0 <= s < |start| ==> |after[s]| == |start[s]| - 1
    ensures |trick| > 0 && trick[0].seat == leader
    ensures trick[|trick| - 1].seat == (leader + |start| - 1) % |start|
  {
    var n := |start|;
    forall s | 0 <= s < n
      ensures |after[s]| == |start[s]| - 1
    {
      var o := Turn(leader, s, n);
      assert trick[o].seat == s;
    }
  }

  /** The number of sets each seat has won. */
  function Counts(setsWon: seq<seq<Trick>>): (won: seq<nat>)
    ensures |won| == |setsWon| && forall s :: 0 <= s < |setsWon| ==> won[s] == |setsWon[s]|
  {
    seq(|setsWon|, s requires 0 <= s < |setsWon| => |setsWon[s]|)
  }

  /** Seat `s` has reached its threshold with the sets it and its partner won. */
  predicate Reached(thresholds: seq<Option<int>>, partnership: map<nat, nat>, won: seq<nat>, s: nat)
    requires |won| == |thresholds| && s < |won| && s in partnership && partnership[s] < |won|
  {
    thresholds[s] == Some(won[s] + won[partnership[s]])
  }

  /** Under the partnerships select_partner forms, a seat reaches its threshold exactly when its partner does. */
  lemma PartnersFinishTogether(b: nat, p: nat, level: int, thresholds: seq<Option<int>>,
                               partnership: map<nat, nat>, won: seq<nat>, s: nat)
    requires Bidding.Teams(b, p, level, thresholds, partnership) && |won| == 4 && s < 4
    ensures partnership[s] < 4 && partnership[partnership[s]] == s
    ensures Reached(thresholds, partnership, won, s) <==> Reached(thresholds, partnership, won, partnership[s])
  {
    var m := partnership[s];
    assert partnership[m] == s;
    assert thresholds[m] == thresholds[s];
  }

  /** A game that is over while some hand still holds cards was ended by a seat's threshold. */
  lemma OverWithCards(snap: Snapshot, thresholds: seq<Option<int>>, partnership: map<nat, nat>) returns (s: nat)
    requires Fits(snap, thresholds, partnership) && Over(snap, thresholds, partnership)
    requires exists k :: 0 <= k < |snap.hands| && |snap.hands[k]| > 0
    ensures s < |snap.hands| && thresholds[s] == Some(|snap.setsWon[s]| + |snap.setsWon[partnership[s]]|)
  {
    s :| 0 <= s < |snap.hands| && thresholds[s] == Some(|snap.setsWon[s]| + |snap.setsWon[partnership[s]]|);
  }

  /** A seat whose sets and its partner's equal its threshold has reached it in the counts. */
  lemma CountsReached(thresholds: seq<Option<int>>, partnership: map<nat, nat>, setsWon: seq<seq<Trick>>, s: nat)
    requires |setsWon| == |thresholds| && s < |setsWon| && s in partnership && partnership[s] < |setsWon|
    requires thresholds[s] == Some(|setsWon[s]| + |setsWon[partnership[s]]|)
    ensures Reached(thresholds, partnership, Counts(setsWon), s)
  {
  }

  /**
   * Under the teams select_partner forms, with at most 13 sets won in all,
   * a seat that reached its threshold did so with its partner, and no
   * opponent reached theirs.
   */
  lemma TeamEnds(b: nat, p: nat, level: int, thresholds: seq<Option<int>>,
                 partnership: map<nat, nat>, won: seq<nat>, s: nat)
    requires Bidding.Teams(b, p, level, thresholds, partnership) && |won| == 4
    requires won[0] + won[1] + won[2] + won[3] <= 13
    requires s < 4 && Reached(thresholds, partnership, won, s)
    ensures partnership[s] < 4 && Reached(thresholds, partnership, won, partnership[s])
    ensures forall t :: 0 <= t < 4 && t != s && t != partnership[s] ==> !Reached(thresholds, partnership, won, t)
  {
    PartnersFinishTogether(b, p, level, thresholds, partnership, won, s);
    forall t | 0 <= t < 4 && t != s && t != partnership[s]
      ensures !Reached(thresholds, partnership, won, t)
    {
      OneTeamReaches(b, p, level, thresholds, partnership, won, s, t);
    }
  }

  /**
   * With at most 13 sets won in all, which a 52-card deal to four seats
   * guarantees, the two teams cannot both reach their thresholds.
   */
  lemma OneTeamReaches(b: nat, p: nat, level: int, thresholds: seq<Option<int>>,
                       partnership: map<nat, nat>, won: seq<nat>, s: nat, t: nat)
    requires Bidding.Teams(b, p, level, thresholds, partnership) && |won| == 4
    requires won[0] + won[1] + won[2] + won[3] <= 13
    requires s < 4 && t < 4 && t != s && t != partnership[s]
    ensures !(Reached(thresholds, partnership, won, s) && Reached(thresholds, partnership, won, t))
  {
    var m, q := partnership[s], partnership[t];
    assert q != s && q != m && m != t && q != t;
    assert thresholds[s].value + thresholds[t].value == 14;
    assert won[s] + won[m] + won[t] + won[q] == won[0] + won[1] + won[2] + won[3];
  }
}

=== FILE: lex.dfy ===
/**
 * Python's `<` on `str`: code point by code point, a proper prefix being
 * smaller. The trick engine compares card ranks with it, so '10' < '2' and
 * 'Ace' < 'King'. The lemmas show it is a strict total order, which is all
 * the trick-resolution proofs rely on.
 */
module Lex {

  predicate StrLess(a: string, b: string)
  {
    if |a| == 0 then |b| > 0
    else if |b| == 0 then false
    else if a[0] != b[0] then a[0] < b[0]
    else StrLess(a[1..], b[1..])
  }

  lemma {:induction false} Irreflexive(a: string)
    ensures !StrLess(a, a)
  {
    if |a| > 0 { Irreflexive(a[1..]); }
  }

  lemma {:induction false} Asymmetric(a: string, b: string)
    ensures StrLess(a, b) ==> !StrLess(b, a)
  {
    if |a| > 0 && |b| > 0 && a[0] == b[0] { Asymmetric(a[1..], b[1..]); }
  }

  lemma {:induction false} Transitive(a: string, b: string, c: string)
    requires StrLess(a, b) && StrLess(b, c)
    ensures StrLess(a, c)
  {
    if |a| > 0 && a[0] == b[0] && b[0] == c[0] {
      Transitive(a[1..], b[1..], c[1..]);
    }
  }

  lemma {:induction false} Connected(a: string, b: string)
    requires a != b
    ensures StrLess(a, b) || StrLess(b, a)
  {
    if |a| > 0 && |b| > 0 && a[0] == b[0] {
      assert a == [a[0]] + a[1..] && b == [b[0]] + b[1..];
      Connected(a[1..], b[1..]);
    }
  }

  /** The two orderings the ranks fall into that differ from card order. */
  lemma LexicographicRanks()
    ensures StrLess("10", "2") && StrLess("Ace", "King") && StrLess("Ace", "2") == false
  {
  }
}

=== FILE: players.dfy ===
/**
 * The Player record of both core.py files: a seat with a hand, the sets it
 * has collected and a threshold fixed after the auction, plus the hand
 * valuation used to decide whether a deal is good enough to bid on.
 */
module Players {
  import opened Wrappers
  import opened Cards
  import opened Valuation

  class Player {
    var name: string
    /** Seat order, counted from 1. */
    var order: int
    var hand: seq<Card>
    var setsWon: seq<Trick>
    var threshold: Option<int>

    /** A new player holds nothing and has no threshold yet. */
    constructor (name: string, order: int)
      ensures this.name == name && this.order == order
      ensures hand == [] && setsWon == [] && threshold == None
    {
      this.name := name;
      this.order := order;
      hand := [];
      setsWon := [];
      threshold := None;
    }

    /** The dealt cards replace the hand wholesale; nothing else changes. */
    method ReceiveHand(cards: seq<Card>)
      modifies this
      ensures hand == cards
      ensures name == old(name) && order == old(order)
      ensures setsWon == old(setsWon) && threshold == old(threshold)
    {
      hand := cards;
    }

    /**
     * Honour points summed over the hand, then one point for each suit of
     * which the hand holds five or more cards. A card whose suit is not one
     * of SUITS has no counter, so the hand must consist of deck suits.
     */
    method HandValue() returns (value: nat)
      requires forall c :: c in hand ==> c.suit in SUITS
      ensures value == HandScore(BRIDGE, hand)
    {
      var suits := SUITS;
      var h := hand;
      var honours := 0;
      var i := 0;
      while i < |h|
        invariant i <= |h|
        invariant honours == HonourPoints(BRIDGE, h[..i])
      {
        assert h[..i + 1][..i] == h[..i];
        honours := honours + Honour(BRIDGE, h[i].rank);
        i := i + 1;
      }
      assert h[..i] == h;
      var counts := CountSuits(suits, h);
      var bonus := CountLongSuits(suits, h, counts);
      value := honours + bonus;
    }
  }

  /** Seats are numbered from 1 in the order the names are given. */
  method NewPlayers(names: seq<string>) returns (players: seq<Player>)
    ensures |players| == |names|
    ensures forall i :: 0 <= i < |names| ==> players[i].name == names[i] && players[i].order == i + 1
    ensures forall i :: 0 <= i < |names| ==> players[i].hand == [] && players[i].setsWon == [] && players[i].threshold == None
    ensures forall i, j :: 0 <= i < j < |players| ==> players[i].order != players[j].order
  {
    players := [];
    var i := 0;
    while i < |names|
      invariant i <= |names| && |players| == i
      invariant forall j :: 0 <= j < i ==> players[j].name == names[j] && players[j].order == j + 1
      invariant forall j :: 0 <= j < i ==> players[j].hand == [] && players[j].setsWon == [] && players[j].threshold == None
    {
      var p := new Player(names[i], i + 1);
      players := players + [p];
      i := i + 1;
    }
  }
}

/**
 * The Player of game/player.py: the same valuation over the symbol deck,
 * accumulated in a single pass.
 */
module Points {
  import opened Cards
  import opened Valuation

  class Player {
    var hand: seq<Card>

    constructor (hand: seq<Card>)
      ensures this.hand == hand
    {
      this.hand := hand;
    }

    /** Honour points plus one per suit with five or more cards; reads the hand only. */
    method CalculatePoints() returns (points: nat)
      requires forall c :: c in hand ==> c.suit in SYMBOL_SUITS
      ensures points == HandScore(SYMBOLS, hand)
    {
      var suits := SYMBOL_SUITS;
      var h := hand;
      points := 0;
      var counts: map<string, nat> := map s | s in suits :: 0;
      var i := 0;
      while i < |h|
        invariant i <= |h|
        invariant points == HonourPoints(SYMBOLS, h[..i])
        invariant forall s :: s in suits <==> s in counts
        invariant forall s :: s in counts ==> counts[s] == SuitCount(h[..i], s)
      {
        TallyStep(h, i, HonourWeight(SYMBOLS));
        forall s ensures SuitCount(h[..i + 1], s) == SuitCount(h[..i], s) + SuitWeight(s)(h[i]) {
          TallyStep(h, i, SuitWeight(s));
        }
        points := points + Honour(SYMBOLS, h[i].rank);
        var suit := h[i].suit;
        counts := counts[suit := counts[suit] + 1];
        i := i + 1;
      }
      assert h[..i] == h;
      var bonus := CountLongSuits(suits, h, counts);
      points := points + bonus;
    }
  }
}

=== FILE: sorting.dfy ===
/**
 * `Deck.sort_deck` (bridgeBot/game/core.py): sorts a list of cards in place
 * by (index of the suit in SUITS, index of the rank in RANKS) and returns the
 * same list. The same order is used to list the partner-card candidates.
 */
module Sorting {
  import opened Cards

  /** `lst.index(x)`; the caller guarantees membership, `|lst|` otherwise. */
  function IndexOf(lst: seq<string>, x: string): (k: nat)
    ensures k <= |lst|
    ensures k < |lst| <==> x in lst
    ensures k < |lst| ==> lst[k] == x
    ensures x !in lst[..k]
  {
    if |lst| == 0 then 0
    else if lst[0] == x then 0
    else 1 + IndexOf(lst[1..], x)
  }

  /** The sort key `(suits.index(suit), ranks.index(rank))`, as one number. */
  function KeyIn(c: Card, suits: seq<string>, ranks: seq<string>): nat
  {
    IndexOf(suits, c.suit) * 16 + IndexOf(ranks, c.rank)
  }

  /** The key of `sort_deck`: positions in SUITS and RANKS. */
  function Key(c: Card): nat
  {
    KeyIn(c, SUITS, RANKS)
  }

  /** Keys compare as the source's key tuples do. */
  lemma KeyIsLexicographic(c: Card, d: Card)
    requires c.suit in SUITS && c.rank in RANKS && d.suit in SUITS && d.rank in RANKS
    ensures Key(c) <= Key(d) <==>
              IndexOf(SUITS, c.suit) < IndexOf(SUITS, d.suit) ||
              (IndexOf(SUITS, c.suit) == IndexOf(SUITS, d.suit) && IndexOf(RANKS, c.rank) <= IndexOf(RANKS, d.rank))
  {
  }

  /** On cards named in SUITS and RANKS the key identifies the card. */
  lemma KeyInjective(c: Card, d: Card)
    requires c.suit in SUITS && c.rank in RANKS && d.suit in SUITS && d.rank in RANKS
    requires Key(c) == Key(d)
    ensures c == d
  {
    var sc, sd := IndexOf(SUITS, c.suit), IndexOf(SUITS, d.suit);
    var rc, rd := IndexOf(RANKS, c.rank), IndexOf(RANKS, d.rank);
    assert rc < |RANKS| == 13 && rd < 13;
    assert sc * 16 + rc == sd * 16 + rd;
    assert sc == sd && rc == rd;
    assert c.suit == SUITS[sc] && d.suit == SUITS[sd];
    assert c.rank == RANKS[rc] && d.rank == RANKS[rd];
  }

  predicate SortedIn(s: seq<Card>, suits: seq<string>, ranks: seq<string>)
  {
    forall p, q :: 0 <= p < q < |s| ==> KeyIn(s[p], suits, ranks) <= KeyIn(s[q], suits, ranks)
  }

  predicate SortedByKey(s: seq<Card>)
  {
    forall p, q :: 0 <= p < q < |s| ==> Key(s[p]) <= Key(s[q])
  }

  /** Insertion sort; Python's `list.sort`, stable, gives the same order on distinct cards. */
  method SortDeck(cards: array<Card>) returns (sorted: array<Card>)
    requires forall k :: 0 <= k < cards.Length ==> cards[k].suit in SUITS && cards[k].rank in RANKS
    modifies cards
    ensures sorted == cards
    ensures SortedByKey(cards[..])
    ensures multiset(cards[..]) == old(multiset(cards[..]))
  {
    SortIn(cards, SUITS, RANKS);
    sorted := cards;
  }

  method SortIn(cards: array<Card>, suits: seq<string>, ranks: seq<string>)
    modifies cards
    ensures SortedIn(cards[..], suits, ranks)
    ensures multiset(cards[..]) == old(multiset(cards[..]))
  {
    var i := 0;
    while i < cards.Length
      invariant i <= cards.Length
      invariant SortedIn(cards[..i], suits, ranks)
      invariant multiset(cards[..]) == old(multiset(cards[..]))
    {
      Insert(cards, i, suits, ranks);
      i := i + 1;
    }
    assert cards[..] == cards[..cards.Length];
  }

  /**
   * The inner loop's invariant: cards[..i+1] is sorted except that the card
   * at j may be smaller than those before it.
   */
  ghost predicate Inserting(s: seq<Card>, j: nat, i: nat, suits: seq<string>, ranks: seq<string>)
    requires j <= i < |s|
  {
    && (forall p, q :: 0 <= p < q < j ==> KeyIn(s[p], suits, ranks) <= KeyIn(s[q], suits, ranks))
    && (forall p, q :: j < p < q <= i ==> KeyIn(s[p], suits, ranks) <= KeyIn(s[q], suits, ranks))
    && (forall p, q :: 0 <= p < j < q <= i ==> KeyIn(s[p], suits, ranks) <= KeyIn(s[q], suits, ranks))
    && (forall q :: j < q <= i ==> KeyIn(s[j], suits, ranks) <= KeyIn(s[q], suits, ranks))
  }

  lemma InsertingStart(s: seq<Card>, i: nat, suits: seq<string>, ranks: seq<string>)
    requires i < |s| && SortedIn(s[..i], suits, ranks)
    ensures Inserting(s, i, i, suits, ranks)
  {
    forall p, q | 0 <= p < q < i ensures KeyIn(s[p], suits, ranks) <= KeyIn(s[q], suits, ranks) {
      assert s[..i][p] == s[p] && s[..i][q] == s[q];
    }
  }

  lemma InsertingStep(s: seq<Card>, j: nat, i: nat, suits: seq<string>, ranks: seq<string>)
    requires 0 < j <= i < |s| && Inserting(s, j, i, suits, ranks) && KeyIn(s[j - 1], suits, ranks) > KeyIn(s[j], suits, ranks)
    ensures Inserting(s[j - 1 := s[j]][j := s[j - 1]], j - 1, i, suits, ranks)
  {
  }

  lemma InsertingDone(s: seq<Card>, j: nat, i: nat, suits: seq<string>, ranks: seq<string>)
    requires j <= i < |s| && Inserting(s, j, i, suits, ranks) && (j == 0 || KeyIn(s[j - 1], suits, ranks) <= KeyIn(s[j], suits, ranks))
    ensures SortedIn(s[..i + 1], suits, ranks)
  {
    var t := s[..i + 1];
    forall p, q | 0 <= p < q < |t| ensures KeyIn(t[p], suits, ranks) <= KeyIn(t[q], suits, ranks) {
      assert t[p] == s[p] && t[q] == s[q];
      if q < j {
      } else if p > j {
      } else if p == j {
      } else if q > j {
      } else if p == j - 1 {
      } else {
        assert KeyIn(s[p], suits, ranks) <= KeyIn(s[j - 1], suits, ranks);
      }
    }
  }

  lemma SwapPermutes(s: seq<Card>, a: nat, b: nat)
    requires a < b < |s|
    ensures multiset(s[a := s[b]][b := s[a]]) == multiset(s)
  {
    var t := s[a := s[b]][b := s[a]];
    assert s == s[..a] + [s[a]] + s[a + 1..b] + [s[b]] + s[b + 1..];
    assert t == s[..a] + [s[b]] + s[a + 1..b] + [s[a]] + s[b + 1..];
  }

  /** Moves cards[i] left past every card with a larger key. */
  method Insert(cards: array<Card>, i: nat, suits: seq<string>, ranks: seq<string>)
    requires i < cards.Length && SortedIn(cards[..i], suits, ranks)
    modifies cards
    ensures SortedIn(cards[..i + 1], suits, ranks)
    ensures multiset(cards[..]) == old(multiset(cards[..]))
  {
    var j := i;
    assert cards[..][..i] == cards[..i];
    InsertingStart(cards[..], i, suits, ranks);
    while j > 0 && KeyIn(cards[j - 1], suits, ranks) > KeyIn(cards[j], suits, ranks)
      invariant 0 <= j <= i
      invariant Inserting(cards[..], j, i, suits, ranks)
      invariant multiset(cards[..]) == old(multiset(cards[..]))
    {
      ghost var s := cards[..];
      cards[j - 1], cards[j] := cards[j], cards[j - 1];
      assert cards[..] == s[j - 1 := s[j]][j := s[j - 1]];
      InsertingStep(s, j, i, suits, ranks);
      SwapPermutes(s, j - 1, j);
      j := j - 1;
    }
    InsertingDone(cards[..], j, i, suits, ranks);
    assert cards[..][..i + 1] == cards[..i + 1];
  }
}

=== FILE: tricks.dfy ===
/**
 * The trick engine: which cards a seat may play, taking the played card out
 * of the hand, the seat order of a set, the opening leader, and the winner
 * of a set. Ranks are compared as Python strings (see Lex).
 */
module Tricks {
  import opened Wrappers
  import opened Cards
  import opened Lex
  import Dealing

  // ----- Following suit -----

  /** The hand's cards of one suit, in hand order. */
  function OfSuit(hand: seq<Card>, suit: string): (r: seq<Card>)
    ensures |r| <= |hand|
    ensures forall i :: 0 <= i < |r| ==> r[i].suit == suit
  {
    if |hand| == 0 then []
    else OfSuit(hand[..|hand| - 1], suit) + (if hand[|hand| - 1].suit == suit then [hand[|hand| - 1]] else [])
  }

  /**
   * The cards a seat may play: with a lead card (whose suit is a non-empty
   * string) the hand's cards of the lead suit, or the whole hand if it has
   * none; before the lead, the whole hand.
   */
  function Legal(hand: seq<Card>, trick: Trick): (legal: seq<Card>)
    ensures |legal| > 0 <==> |hand| > 0
    ensures legal == hand || (|trick| > 0 && forall i :: 0 <= i < |legal| ==> legal[i].suit == trick[0].card.suit)
  {
    var suitHand := if |trick| > 0 && trick[0].card.suit != "" then OfSuit(hand, trick[0].card.suit) else hand;
    if |suitHand| > 0 then suitHand else hand
  }

  lemma {:induction false} OfSuitMembers(hand: seq<Card>, suit: string, c: Card)
    ensures c in OfSuit(hand, suit) <==> c in hand && c.suit == suit
    ensures multiset(OfSuit(hand, suit)) <= multiset(hand)
    decreases |hand|
  {
    if |hand| > 0 {
      var init := hand[..|hand| - 1];
      OfSuitMembers(init, suit, c);
      assert hand == init + [hand[|hand| - 1]];
    }
  }

  lemma {:induction false} OfSuitNone(hand: seq<Card>, suit: string)
    requires forall c :: c in hand ==> c.suit != suit
    ensures OfSuit(hand, suit) == []
    decreases |hand|
  {
    if |hand| > 0 {
      OfSuitNone(hand[..|hand| - 1], suit);
    }
  }

  /**
   * Following suit: holding a card of the lead suit, a seat may play exactly
   * its cards of that suit; holding none, any card.
   */
  lemma LegalWithLead(hand: seq<Card>, trick: Trick)
    requires |trick| > 0 && trick[0].card.suit != ""
    ensures (exists c :: c in hand && c.suit == trick[0].card.suit) ==>
      forall c :: c in Legal(hand, trick) <==> c in hand && c.suit == trick[0].card.suit
    ensures (forall c :: c in hand ==> c.suit != trick[0].card.suit) ==> Legal(hand, trick) == hand
  {
    var lead := trick[0].card.suit;
    forall c ensures c in OfSuit(hand, lead) <==> c in hand && c.suit == lead {
      OfSuitMembers(hand, lead, c);
    }
    if exists c :: c in hand && c.suit == lead {
      var c :| c in hand && c.suit == lead;
      assert c in OfSuit(hand, lead);
    } else {
      OfSuitNone(hand, lead);
    }
  }

  /** The lead may play anything. */
  lemma LegalWithoutLead(hand: seq<Card>, trick: Trick)
    requires |trick| == 0
    ensures Legal(hand, trick) == hand
  {
  }

  /** The legal cards are cards of the hand, and there are some exactly when the hand is not empty. */
  lemma LegalInHand(hand: seq<Card>, trick: Trick)
    ensures multiset(Legal(hand, trick)) <= multiset(hand)
    ensures forall c :: c in Legal(hand, trick) ==> c in hand
    ensures |Legal(hand, trick)| > 0 <==> |hand| > 0
  {
    if |trick| > 0 && trick[0].card.suit != "" {
      var lead := trick[0].card.suit;
      forall c ensures c in OfSuit(hand, lead) ==> c in hand {
        OfSuitMembers(hand, lead, c);
      }
      OfSuitMembers(hand, lead, Card("", ""));
    }
  }

  // ----- Playing a card -----

  /** `list.remove`: the first occurrence of the card leaves the hand. */
  function RemoveFirst(hand: seq<Card>, c: Card): (rest: seq<Card>)
    requires c in hand
    ensures |rest| == |hand| - 1
  {
    if hand[0] == c then hand[1..] else [hand[0]] + RemoveFirst(hand[1..], c)
  }

  /** Exactly one copy of the card leaves the hand. */
  lemma {:induction false} RemoveFirstCount(hand: seq<Card>, c: Card)
    requires c in hand
    ensures multiset(RemoveFirst(hand, c)) == multiset(hand) - multiset{c}
  {
    assert hand == [hand[0]] + hand[1..];
    if hand[0] != c {
      RemoveFirstCount(hand[1..], c);
    }
  }

  /** Only the first copy of the card goes; the cards before and after it stay in order. */
  lemma {:induction false} RemoveFirstAt(hand: seq<Card>, c: Card) returns (k: nat)
    requires c in hand
    ensures k < |hand| && hand[k] == c && c !in hand[..k]
    ensures RemoveFirst(hand, c) == hand[..k] + hand[k + 1..]
  {
    if hand[0] == c {
      k := 0;
    } else {
      var tail := hand[1..];
      var j := RemoveFirstAt(tail, c);
      k := j + 1;
      var pre := hand[..k];
      assert pre == [hand[0]] + tail[..j];
      assert c !in pre;
      assert hand[k + 1..] == tail[j + 1..];
      assert RemoveFirst(hand, c) == [hand[0]] + RemoveFirst(tail, c);
      assert [hand[0]] + (tail[..j] + tail[j + 1..]) == pre + hand[k + 1..];
    }
  }

  // ----- Seat order -----

  /** The seat that plays o-th in a set led by `leader` at an n-seat table. */
  function Rotate(leader: nat, o: nat, n: nat): (seat: nat)
    requires leader < n && o < n
    ensures seat < n && seat == (leader + o) % n
  {
    if leader + o < n then
      Dealing.DivUnique(leader + o, n, 0, leader + o);
      leader + o
    else
      Dealing.DivUnique(leader + o, n, 1, leader + o - n);
      leader + o - n
  }

  /** When a seat plays in a set led by `leader`. */
  function Turn(leader: nat, seat: nat, n: nat): (o: nat)
    requires leader < n && seat < n
    ensures o < n && Rotate(leader, o, n) == seat
  {
    if seat >= leader then seat - leader else seat + n - leader
  }

  /** Each seat plays exactly once in a set. */
  lemma RotationOnce(leader: nat, n: nat, o1: nat, o2: nat)
    requires leader < n && o1 < n && o2 < n
    ensures Rotate(leader, o1, n) == Rotate(leader, o2, n) <==> o1 == o2
  {
  }

  /**
   * The first leader: the seat two after the bidder when the contract has a
   * trump suit, the bidder in No Trump.
   */
  function OpeningLeader(trump: string, bidder: nat, n: nat): (leader: nat)
    requires bidder < n
    ensures leader < n
    ensures n == 4 && trump in SUITS ==> leader != bidder
  {
    if trump in SUITS then
      (bidder + 2) % n
    else bidder
  }

  // ----- Winning a set -----

  /**
   * When a later card replaces the highest so far: a trump beats a non-trump
   * or a lower trump; a card of the highest card's suit beats it when higher,
   * unless that suit is trump (covered by the first case).
   */
  predicate Beats(card: Card, highest: Card, trump: string)
    ensures Beats(card, highest, trump) ==> card.suit == trump || card.suit == highest.suit
  {
    || (card.suit == trump && (highest.suit != trump || StrLess(highest.rank, card.rank)))
    || (card.suit == highest.suit && StrLess(highest.rank, card.rank) && highest.suit != trump)
  }

  /** Of two cards, at most one displaces the other. */
  lemma BeatsAsymmetric(c: Card, d: Card, trump: string)
    ensures !(Beats(c, d, trump) && Beats(d, c, trump))
  {
    Asymmetric(c.rank, d.rank);
  }

  /** The place of the highest card among the first k plays. */
  function Best(t: Trick, k: nat, trump: string): (b: nat)
    requires 1 <= k <= |t|
    ensures b < k
  {
    if k == 1 then 0
    else
      var b := Best(t, k - 1, trump);
      if Beats(t[k - 1].card, t[b].card, trump) then k - 1 else b
  }

  /** The seat that wins a set; an empty set has no winner. */
  function Winner(t: Trick, trump: string): (w: Option<nat>)
    ensures w.Some? <==> |t| > 0
  {
    if |t| == 0 then None else Some(t[Best(t, |t|, trump)].seat)
  }

  /** A non-empty set is won by one of the seats that played in it. */
  lemma WinnerPlayed(t: Trick, trump: string)
    requires |t| > 0
    ensures Winner(t, trump).Some?
    ensures exists i :: 0 <= i < |t| && t[i].seat == Winner(t, trump).value
  {
    var b := Best(t, |t|, trump);
    assert t[b].seat == Winner(t, trump).value;
  }

  /** Once a trump is played, the highest card is a trump: a trump is never displaced by a non-trump. */
  lemma {:induction false} BestTrump(t: Trick, k: nat, trump: string, j: nat)
    requires 1 <= k <= |t| && j < k && t[j].card.suit == trump
    ensures t[Best(t, k, trump)].card.suit == trump
  {
    if k > 1 {
      var b := Best(t, k - 1, trump);
      if j < k - 1 {
        BestTrump(t, k - 1, trump, j);
      }
    }
  }

  /** With no trump played (as always in No Trump), the highest card has the lead suit. */
  lemma {:induction false} BestLead(t: Trick, k: nat, trump: string)
    requires 1 <= k <= |t|
    requires forall j :: 0 <= j < k ==> t[j].card.suit != trump
    ensures t[Best(t, k, trump)].card.suit == t[0].card.suit
  {
    if k > 1 {
      BestLead(t, k - 1, trump);
    }
  }

  /** No card of the highest card's suit among the first k plays outranks it. */
  lemma {:induction false} BestMaximal(t: Trick, k: nat, trump: string, j: nat)
    requires 1 <= k <= |t| && j < k
    requires t[j].card.suit == t[Best(t, k, trump)].card.suit
    ensures !StrLess(t[Best(t, k, trump)].card.rank, t[j].card.rank)
  {
    var b := Best(t, k, trump);
    if j == b {
      Irreflexive(t[j].card.rank);
    } else if k > 1 {
      var b0 := Best(t, k - 1, trump);
      var h := t[b0].card;
      if b == b0 {
        // the last card did not beat h; j is either that card or an earlier one
        if j < k - 1 {
          BestMaximal(t, k - 1, trump, j);
        }
      } else {
        // the last card c beat h
        var c := t[k - 1].card;
        assert b == k - 1;
        if c.suit == h.suit {
          BestMaximal(t, k - 1, trump, j);
          if StrLess(c.rank, t[j].card.rank) {
            Transitive(h.rank, c.rank, t[j].card.rank);
          }
        } else {
          // c is a trump and h is not, so no earlier card was a trump
          if t[j].card.suit == trump {
            BestTrump(t, k - 1, trump, j);
          }
        }
      }
    }
  }

  /**
   * The winner holds the highest trump if any trump was played, otherwise
   * the highest card of the lead suit; an off-suit card that is not a trump
   * never wins.
   */
  lemma WinningCard(t: Trick, trump: string)
    requires |t| > 0
    ensures var w := t[Best(t, |t|, trump)].card;
      && ((exists j :: 0 <= j < |t| && t[j].card.suit == trump) ==> w.suit == trump)
      && ((forall j :: 0 <= j < |t| ==> t[j].card.suit != trump) ==> w.suit == t[0].card.suit)
      && (w.suit == trump || w.suit == t[0].card.suit)
      && (forall j :: 0 <= j < |t| && t[j].card.suit == w.suit ==> !StrLess(w.rank, t[j].card.rank))
  {
    var k := |t|;
    if exists j :: 0 <= j < k && t[j].card.suit == trump {
      var j :| 0 <= j < k && t[j].card.suit == trump;
      BestTrump(t, k, trump, j);
    } else {
      BestLead(t, k, trump);
    }
    forall j | 0 <= j < k && t[j].card.suit == t[Best(t, k, trump)].card.suit
      ensures !StrLess(t[Best(t, k, trump)].card.rank, t[j].card.rank)
    {
      BestMaximal(t, k, trump, j);
    }
  }

  /**
   * A trump ruffs the lead: with Spades as trump, the 2 of Hearts led, then the
   * 3 of Spades, the King of Hearts and the Ace of Clubs, the 3 of Spades wins.
   */
  lemma RuffWins()
    ensures Winner([Play(0, Card("2", "Hearts")), Play(1, Card("3", "Spades")),
                    Play(2, Card("King", "Hearts")), Play(3, Card("Ace", "Clubs"))], "Spades") == Some(1)
  {
    var t := [Play(0, Card("2", "Hearts")), Play(1, Card("3", "Spades")),
              Play(2, Card("King", "Hearts")), Play(3, Card("Ace", "Clubs"))];
    assert Best(t, 2, "Spades") == 1;
    assert Best(t, 3, "Spades") == 1;
    assert Best(t, 4, "Spades") == 1;
  }

  /** Ranks compare as strings: a 9 led holds against the 10 of the same suit. */
  lemma NineBeatsTen()
    ensures Winner([Play(0, Card("9", "Hearts")), Play(1, Card("10", "Hearts"))], "No Trump") == Some(0)
  {
    assert !StrLess("9", "10");
  }

  /**
   * `resolve_set`: one pass over the set, keeping the highest card so far
   * and its seat.
   */
  method ResolveSet(trick: Trick, trump: string) returns (winner: Option<nat>)
    ensures winner == Winner(trick, trump)
  {
    var highest: Option<Card> := None;
    winner := None;
    ghost var best := 0;
    var i := 0;
    while i < |trick|
      invariant i <= |trick|
      invariant i == 0 ==> highest.None? && winner.None?
      invariant i > 0 ==> best == Best(trick, i, trump) && highest == Some(trick[best].card) && winner == Some(trick[best].seat)
    {
      var play := trick[i];
      if highest.None? {
        highest := Some(play.card);
        winner := Some(play.seat);
        best := i;
      } else if play.card.suit == trump && (highest.value.suit != trump || StrLess(highest.value.rank, play.card.rank)) {
        highest := Some(play.card);
        winner := Some(play.seat);
        best := i;
      } else if play.card.suit == highest.value.suit && StrLess(highest.value.rank, play.card.rank) && highest.value.suit != trump {
        highest := Some(play.card);
        winner := Some(play.seat);
        best := i;
      }
      i := i + 1;
    }
  }
}

=== FILE: valuation.dfy ===
/**
 * Hand valuation: honour points (ace 4, king 3, queen 2, jack 1, any other
 * rank 0) plus one point per suit holding five or more cards. The two
 * variants of the code differ only in the rank and suit names they use.
 */
module Valuation {
  import opened Cards

  datatype Scheme = Scheme(ace: string, king: string, queen: string, jack: string, suits: seq<string>)

  /** `hand_value` in both core.py files: full rank names, SUITS. */
  const BRIDGE: Scheme := Scheme("Ace", "King", "Queen", "Jack", SUITS)
  /** `calculate_points` in game/player.py: rank letters, suit symbols. */
  const SYMBOLS: Scheme := Scheme("A", "K", "Q", "J", SYMBOL_SUITS)

  /** `value_dict.get(rank, 0)`. */
  function Honour(scheme: Scheme, rank: string): (points: nat)
    ensures points <= 4
    ensures points > 0 ==> rank in [scheme.ace, scheme.king, scheme.queen, scheme.jack]
  {
    if rank == scheme.ace then 4
    else if rank == scheme.king then 3
    else if rank == scheme.queen then 2
    else if rank == scheme.jack then 1
    else 0
  }

  /** Sum of a per-card weight over a hand. */
  function Tally(hand: seq<Card>, weight: Card -> nat): nat
  {
    if |hand| == 0 then 0
    else Tally(hand[..|hand| - 1], weight) + weight(hand[|hand| - 1])
  }

  function HonourWeight(scheme: Scheme): Card -> nat
  {
    (c: Card) => Honour(scheme, c.rank)
  }

  function SuitWeight(suit: string): Card -> nat
  {
    (c: Card) => if c.suit == suit then 1 else 0
  }

  function HonourPoints(scheme: Scheme, hand: seq<Card>): nat
  {
    Tally(hand, HonourWeight(scheme))
  }

  function SuitCount(hand: seq<Card>, suit: string): nat
  {
    Tally(hand, SuitWeight(suit))
  }

  /** The number of the listed suits that the hand holds five or more cards of. */
  function LongSuits(suits: seq<string>, hand: seq<Card>): nat
  {
    if |suits| == 0 then 0
    else LongSuits(suits[..|suits| - 1], hand) + (if SuitCount(hand, suits[|suits| - 1]) >= 5 then 1 else 0)
  }

  /** One more card adds its weight to a prefix sum. */
  lemma TallyStep(h: seq<Card>, i: nat, weight: Card -> nat)
    requires i < |h|
    ensures Tally(h[..i + 1], weight) == Tally(h[..i], weight) + weight(h[i])
  {
    assert h[..i + 1][..i] == h[..i];
  }

  /** The `suit_counts` loop: one counter per listed suit, raised for every card of that suit. */
  method CountSuits(suits: seq<string>, hand: seq<Card>) returns (counts: map<string, nat>)
    requires forall c :: c in hand ==> c.suit in suits
    ensures forall s :: s in suits <==> s in counts
    ensures forall s :: s in counts ==> counts[s] == SuitCount(hand, s)
  {
    counts := map s | s in suits :: 0;
    var i := 0;
    while i < |hand|
      invariant i <= |hand|
      invariant forall s :: s in suits <==> s in counts
      invariant forall s :: s in counts ==> counts[s] == SuitCount(hand[..i], s)
    {
      assert hand[..i + 1][..i] == hand[..i];
      var suit := hand[i].suit;
      counts := counts[suit := counts[suit] + 1];
      i := i + 1;
    }
    assert hand[..i] == hand;
  }

  /**
   * The bonus loop shared by both valuations: one point for every listed
   * suit whose counter is at least five.
   */
  method CountLongSuits(suits: seq<string>, hand: seq<Card>, counts: map<string, nat>) returns (bonus: nat)
    requires forall s :: s in suits ==> s in counts && counts[s] == SuitCount(hand, s)
    ensures bonus == LongSuits(suits, hand)
  {
    bonus := 0;
    var k := 0;
    while k < |suits|
      invariant k <= |suits|
      invariant bonus == LongSuits(suits[..k], hand)
    {
      assert suits[..k + 1][..k] == suits[..k];
      if counts[suits[k]] >= 5 {
        bonus := bonus + 1;
      }
      k := k + 1;
    }
    assert suits[..k] == suits;
  }

  /** The value of a hand: honour points plus the long-suit bonus. */
  function HandScore(scheme: Scheme, hand: seq<Card>): (score: nat)
    ensures score <= 4 * |hand| + |scheme.suits|
  {
    HonourPointsBound(scheme, hand);
    LongSuitsBound(scheme.suits, hand);
    HonourPoints(scheme, hand) + LongSuits(scheme.suits, hand)
  }

  lemma {:induction false} TallyAppend(a: seq<Card>, b: seq<Card>, weight: Card -> nat)
    ensures Tally(a + b, weight) == Tally(a, weight) + Tally(b, weight)
    decreases |b|
  {
    if |b| > 0 {
      var b' := b[..|b| - 1];
      assert (a + b)[..|a + b| - 1] == a + b';
      assert (a + b)[|a + b| - 1] == b[|b| - 1];
      TallyAppend(a, b', weight);
    } else {
      assert a + b == a;
    }
  }

  /** Taking out the card at k lowers the tally by that card's weight. */
  lemma TallyRemove(h: seq<Card>, k: nat, weight: Card -> nat)
    requires k < |h|
    ensures Tally(h, weight) == Tally(h[..k] + h[k + 1..], weight) + weight(h[k])
  {
    assert h == h[..k] + ([h[k]] + h[k + 1..]);
    TallyAppend(h[..k], [h[k]] + h[k + 1..], weight);
    TallyAppend([h[k]], h[k + 1..], weight);
    TallyAppend(h[..k], h[k + 1..], weight);
    assert Tally([h[k]], weight) == weight(h[k]) by {
      assert [h[k]][..0] == [];
    }
  }

  lemma MultisetRemove(h: seq<Card>, k: nat)
    requires k < |h|
    ensures multiset(h[..k] + h[k + 1..]) == multiset(h) - multiset{h[k]}
  {
    assert h == h[..k] + [h[k]] + h[k + 1..];
  }

  /** A tally depends only on which cards the hand holds, not on their order. */
  lemma {:induction false} TallyPermutation(h1: seq<Card>, h2: seq<Card>, weight: Card -> nat)
    requires multiset(h1) == multiset(h2)
    ensures Tally(h1, weight) == Tally(h2, weight)
    decreases |h1|
  {
    if |h1| > 0 {
      var n := |h1| - 1;
      var x := h1[n];
      assert x in multiset(h2);
      var k :| 0 <= k < |h2| && h2[k] == x;
      MultisetRemove(h1, n);
      MultisetRemove(h2, k);
      assert h1[..n] + h1[n + 1..] == h1[..n];
      TallyPermutation(h1[..n], h2[..k] + h2[k + 1..], weight);
      TallyRemove(h2, k, weight);
    }
  }

  lemma {:induction false} LongSuitsPermutation(suits: seq<string>, h1: seq<Card>, h2: seq<Card>)
    requires multiset(h1) == multiset(h2)
    ensures LongSuits(suits, h1) == LongSuits(suits, h2)
  {
    if |suits| > 0 {
      LongSuitsPermutation(suits[..|suits| - 1], h1, h2);
      var s := suits[|suits| - 1];
      TallyPermutation(h1, h2, SuitWeight(s));
    }
  }

  /** `hand_value` does not depend on the order of the cards. */
  lemma HandScorePermutation(scheme: Scheme, h1: seq<Card>, h2: seq<Card>)
    requires multiset(h1) == multiset(h2)
    ensures HandScore(scheme, h1) == HandScore(scheme, h2)
  {
    TallyPermutation(h1, h2, HonourWeight(scheme));
    LongSuitsPermutation(scheme.suits, h1, h2);
  }

  lemma {:induction false} LongSuitsBound(suits: seq<string>, hand: seq<Card>)
    ensures LongSuits(suits, hand) <= |suits|
  {
    if |suits| > 0 { LongSuitsBound(suits[..|suits| - 1], hand); }
  }

  lemma {:induction false} LongSuitsEmpty(suits: seq<string>)
    ensures LongSuits(suits, []) == 0
  {
    if |suits| > 0 { LongSuitsEmpty(suits[..|suits| - 1]); }
  }

  /** The long-suit bonus is between 0 and 4, and an empty hand is worth 0. */
  lemma HandScoreBounds(scheme: Scheme, hand: seq<Card>)
    requires |scheme.suits| == 4
    ensures HonourPoints(scheme, hand) <= HandScore(scheme, hand) <= HonourPoints(scheme, hand) + 4
    ensures hand == [] ==> HandScore(scheme, hand) == 0
  {
    LongSuitsBound(scheme.suits, hand);
    LongSuitsEmpty(scheme.suits);
  }

  /** No card is worth more than four honour points. */
  lemma {:induction false} HonourPointsBound(scheme: Scheme, hand: seq<Card>)
    ensures HonourPoints(scheme, hand) <= 4 * |hand|
    decreases |hand|
  {
    if |hand| > 0 { HonourPointsBound(scheme, hand[..|hand| - 1]); }
  }
}

=== FILE: wrappers.dfy ===
/** Optional values: Python's `None` for a field that is not yet set. */
module Wrappers {
  datatype Option<+T> = None | Some(value: T)
}
